=== FILE: README.md ===
# BiCo accounts: a verified model of the intake workflow

BiCo is a small Django application where staff (admins, therapists and
assessors) register clients and record their talent assessments. This project
models the core of its `accounts` app in Dafny and proves properties of that
model. The core is the field cleaners of the forms, the two models with the
constraints the database enforces, and the five views of the intake workflow:
register, search a client by national code, create the client, record an
assessment, and show it.

The modules follow the source:

- `Options` is the optional-value datatype.
- `Text` holds the Python string operations the forms use: `str.strip()`
  with Python's whitespace set, `str.isdigit()`, and keeping only the digits
  of a string. Python's `isdigit` accepts every Unicode decimal digit
  (Persian digits among them). So digit-ness is a parameter
  `isDigit: char -> bool`, and every property holds for every classifier.
  Where a proof needs "no whitespace character is a digit" (true of
  Python), it takes that as a precondition.
- `Models` (accounts/models.py) has the `Role`, `Gender` and peer-status
  choice sets with their stored codes, the `User` and `TalentAssessment`
  records, and the `limit_choices_to` role limits.
- `Database` is the store: two tables with auto-increment keys. Its
  constraints are the unique national code, foreign keys that must resolve
  and are `on_delete=PROTECT`, and the NOT NULL `parent_total_score`.
  `Consistent` is what the database enforces. `RoleLimitsRespected` is the
  `limit_choices_to` declarations, which Django does not enforce on save.
- `Forms` (accounts/forms.py) has each form's `is_valid()` as a function
  from the submitted fields to the cleaned value or the set of fields in
  error. The Django field layer is included: a missing value reads as "",
  the value is stripped, then `required` and `max_length` are checked and a
  value holding a null character is refused (Django's
  `ProhibitNullCharactersValidator`), before `clean_<field>`. It also has the uniqueness check a model form runs
  and `ClientCreateForm.save`.
- `Views` (accounts/views.py) has one function per view. Each takes the
  store, the signed-in user, the HTTP method and the submitted data, and
  returns the page or redirect together with the store afterwards.
- `Intake` holds the properties that span several requests.

Elsewhere the application treats a national code as exactly ten digits:
the register and search forms insist on it. `ClientCreateForm`
(accounts/forms.py:156-175) applies no such check of its own, only the model
field's `max_length=10`, `required` and `unique`, and the model follows the
code. So a client can be stored under a code such as
`"123"`, and no search can ever reach it (`Intake.ShortCodeClientUnreachable`,
`Intake.SearchNeedsTenDigitCode`).

`talent_new` does not check the acting user's role, and `RegisterForm`
offers every role, CLIENT included, to anyone who signs up. So the
staff-only limit on `created_by` holds only while staff record assessments.
The model makes this a precondition (`Intake.TalentNewByStaffKeepsValid`)
and proves that a signed-in CLIENT breaks it
(`Intake.TalentNewByClientBreaksRoleLimits`).

## Model

| member | source | states |
|---|---|---|
| Text.Strip | accounts/forms.py:102 | the result has no whitespace at either end, is no longer than the input, and an input already without edge whitespace is returned unchanged |
| Text.StripCutsOnlyEdgeWhitespace | accounts/forms.py:102 | the stripped string is a contiguous slice of the input with only whitespace before and after it |
| Text.StripIsUnique | accounts/forms.py:102 | any slice that cuts only edge whitespace and leaves none at either end is the stripped string, so stripping removes exactly the whitespace at both ends |
| Text.StripIdempotent | accounts/forms.py:147 | stripping a stripped string changes nothing |
| Text.KeepDigits | accounts/forms.py:109 | the result is all digits, no longer than the input, and an all-digit input is kept whole |
| Text.KeepDigitsIsDigitsOf | accounts/forms.py:109 | the digit filter returns exactly the input's digits: an in-order subsequence, every character a digit, every occurrence of every digit kept |
| Text.KeepDigitsIgnoresStrip | accounts/forms.py:108-109 | filtering the stripped input yields the same digits as filtering the raw input |
| Models.ParseRole | accounts/models.py:7-13 | a role is accepted exactly when the text is one of the four stored codes, and the accepted role has that code |
| Models.ParseGender | accounts/models.py:20-25 | a gender is accepted exactly when the text is F, M or O, and the accepted gender has that code |
| Models.ParsePeer | accounts/models.py:36-40 | a peer status is accepted exactly when the text is "1", "1.5" or "2", and the accepted status has that code |
| Database.InsertUser | accounts/models.py:16 | inserting a user fails (unique violation) exactly when its national code is taken; otherwise it is stored under a fresh key with nothing else changed |
| Database.FindClient | accounts/views.py:43 | the search returns the smallest key holding a CLIENT with the code, and returns nothing exactly when no CLIENT holds it |
| Database.FindClientExact | accounts/views.py:43 | with unique codes, the search returns a user exactly when that user is a CLIENT holding the code |
| Database.InsertAssessment | accounts/models.py:43-80 | saving fails exactly when the NOT NULL total is missing or a referenced user is absent (NOT NULL violation when the total is missing); otherwise the row is stored under a fresh key and the users are unchanged |
| Database.GetAssessment | accounts/views.py:90 | a lookup fails exactly when the key is absent; otherwise it returns the stored row |
| Database.DeleteUser | accounts/models.py:43-64 | deleting fails exactly when the user is absent or referenced, and a referenced user is refused as protected; otherwise only that user is removed |
| Forms.CharFieldClean | accounts/models.py:16-17 | a declared text field accepts exactly when the stripped value is non-empty (if required), within the maximum length and free of null characters, and yields the stripped value |
| Forms.CharFieldKeepsCleanValue | accounts/models.py:16-17 | a value that is already stripped, free of null characters and within the field's limits is accepted unchanged |
| Forms.OptionalTextClean | accounts/models.py:29-30 | an optional text field with no length limit (email, bio, notes) accepts exactly when the stripped value holds no null character, and yields the stripped value |
| Forms.CleanNationalCode | accounts/forms.py:101-105 | the registration national code is accepted exactly when its stripped form is ten digits, and the result is the stripped form |
| Forms.MissingNationalCodeRejected | accounts/forms.py:102 | a missing or empty national code is rejected |
| Forms.CleanNationalCodeStable | accounts/forms.py:101-105 | cleaning an accepted national code again returns it unchanged |
| Forms.CleanSearchCode | accounts/forms.py:146-150 | the search national code is accepted exactly when its stripped form is ten digits, and the result is the stripped form |
| Forms.SearchAndRegisterCodeRulesAgree | accounts/forms.py:146-150 | the search form and the register form apply the same national-code rule |
| Forms.RegisterCodeField | accounts/forms.py:21-31 | with the declared field limits in front of the cleaner, the register form's code field still accepts exactly the ten-digit stripped codes free of null characters |
| Forms.SearchCodeField | accounts/forms.py:134-150 | the search form's code field accepts exactly the ten-digit stripped codes free of null characters and yields the stripped code |
| Forms.CleanPhone | accounts/forms.py:107-112 | the phone is rejected exactly when fewer than ten digits remain; an accepted phone is exactly the digits of the stripped input, at least ten of them |
| Forms.CleanPhoneKeepsInputDigits | accounts/forms.py:108-109 | an accepted phone is exactly the digits of the raw, unstripped input |
| Forms.CleanPhoneIdempotent | accounts/forms.py:107-112 | cleaning an accepted phone again returns it unchanged |
| Forms.RegisterPhoneField | accounts/forms.py:33-43 | the register phone is accepted exactly when the stripped input fits 20 characters, holds no null character and holds at least ten digits; the result is those digits |
| Forms.RegisterErrors | accounts/forms.py:101-105 | the register form reports no error exactly when every field cleaned and the code is free; it flags the code exactly when the code failed or is taken |
| Forms.RegisterFormClean | accounts/forms.py:114-129 | an accepted registration stores the chosen role, the stripped ten-digit free national code, the phone's digits, and the stripped name, username, email and bio; a rejection names at least one register field |
| Forms.RegisterFormAcceptsCleanFields | accounts/forms.py:101-129 | the register form accepts exactly when the username and name pass their field checks, role and gender are among the choices, the stripped code is ten digits and held by nobody, the phone field cleans, the birth date is given, and email and bio hold no null character |
| Forms.RegisterErrorsExact | accounts/forms.py:101-105 | a rejected registration flags the national code exactly when it is not ten digits or is taken, and flags the role exactly when it is none of the four codes |
| Forms.ClientErrors | accounts/models.py:16-25 | the client form reports no error exactly when every field cleaned and the code is free; it flags the code exactly when the code failed or is taken |
| Forms.ClientFormClean | accounts/forms.py:156-175 | an accepted client form yields a user with empty username, the default role, a stripped non-empty free code of at most ten characters without a null character, and the stripped other fields; a rejection flags the code exactly when it is empty, too long, holds a null character or is taken |
| Forms.ClientFormSave | accounts/forms.py:177-185 | saving forces role CLIENT, turns an empty username into "client_" followed by the national code, keeps a non-empty one, and changes nothing else |
| Forms.ClientFormSaveIdempotent | accounts/forms.py:181-182 | saving a saved client changes nothing |
| Forms.CleanScore | accounts/models.py:69-72 | a domain score is accepted exactly when it is present and in 0..32767, and is returned as given |
| Forms.CleanPeer | accounts/models.py:83-86 | a peer rating is accepted exactly when it is one of the three codes, and the accepted rating has that code |
| Forms.AssessmentFormAsWritten | accounts/forms.py:191-202 | the form as written accepts exactly when the date is given, all eight scores and four ratings clean and the notes hold no null character; it then carries them as submitted and always leaves the parent total empty; a rejection names only listed fields |
| Forms.ListedErrorsExact | accounts/forms.py:194-202 | the listed fields report no error exactly when every one of them cleans |
| Forms.AssessmentRejectionNamesFailures | accounts/forms.py:194-202 | a rejection by the written form flags the date exactly when it is missing, each coach score, parent score and peer rating exactly when it does not clean, and the notes exactly when they hold a null character |
| Forms.AssessmentForm | accounts/models.py:80 | with the total on the form, a submission is accepted exactly when the written form accepts it and a total is given, and it carries that total |
| Views.RegisterWith | accounts/views.py:20-34 | a signed-in user is sent home with nothing written; only an anonymous POST with a valid form stores the user, under a fresh key, and signs it in; otherwise the visitor stays anonymous and sees the form again, empty on GET and with the form's errors on an invalid POST |
| Views.Register | accounts/views.py:20-34 | registration by a signed-in user creates nothing; the store changes exactly when an anonymous visitor posts a valid form, and then by the new user only; when nothing is stored the session is unchanged and an anonymous visitor sees the form with the form's errors |
| Views.TalentStart | accounts/views.py:37-50 | an anonymous user is sent to login and a signed-in one never is; the search page is shown again exactly on GET or an invalid code; a match leads to a CLIENT holding the code; a miss carries the stripped code to client creation, and then no CLIENT holds it |
| Views.SearchRedirect | accounts/views.py:43-48 | a valid code leads to the assessment form exactly when some CLIENT holds it, and then to a CLIENT holding it; it leads to client creation carrying the code exactly when no CLIENT holds it |
| Views.Prefill | accounts/views.py:55-58 | the creation form is pre-filled exactly when the query code is present and non-empty, and then with that code |
| Views.ClientCreate | accounts/views.py:53-66 | creation succeeds exactly on a signed-in POST of a valid form; it stores the saved client under a fresh key with nothing else changed; a signed-in GET or invalid POST shows the form pre-filled from the query, with no errors or with the form's errors, and writes nothing |
| Views.AssessorFor | accounts/views.py:79-80 | the assessor is set exactly when the acting user is a THERAPIST or ASSESSOR, and is then that user |
| Views.NewAssessment | accounts/views.py:75-80 | the saved row binds the client, takes the acting user as creator and carries every cleaned field |
| Views.SaveAssessment | accounts/views.py:82-83 | the detail redirect happens exactly when the insert succeeds; a refused insert is a server error with nothing written |
| Views.TalentNewWith | accounts/views.py:69-85 | an absent or non-CLIENT client is not found; for an existing CLIENT, a signed-in GET shows the empty form, a rejected POST re-renders the form with its errors and nothing saved, and only a valid POST saves the row built from the form |
| Views.TalentNewAsWritten | accounts/views.py:69-85 | as written, the view never reaches the detail page and never changes the store |
| Views.TalentNew | accounts/views.py:69-85 | with the total on the form, a signed-in POST of a valid form for an existing CLIENT always saves; the row binds the client and the acting user, with the assessor set exactly for THERAPIST or ASSESSOR; a signed-in GET shows the empty form and a rejected POST re-renders the form with the form's errors; otherwise nothing changes |
| Views.TalentDetail | accounts/views.py:88-91 | the detail view is not found exactly when the key is absent, and otherwise shows the stored row unchanged |
| Intake.AddUserKeepsValid | accounts/models.py:16 | adding a user with a free code keeps the database consistent and the role limits intact |
| Intake.RegisterKeepsValid | accounts/views.py:25-31 | registration keeps the database valid |
| Intake.ClientCreateKeepsValid | accounts/views.py:60-64 | client creation keeps the database valid |
| Intake.TalentNewKeepsConsistent | accounts/views.py:74-83 | whoever submits it, recording an assessment keeps the database consistent |
| Intake.TalentNewByStaffKeepsValid | accounts/models.py:50-64 | when the acting user is staff, recording an assessment keeps the role limits too |
| Intake.TalentNewByClientBreaksRoleLimits | accounts/views.py:77 | a signed-in CLIENT records an assessment, and the store breaks the staff-only creator limit |
| Intake.SelfRegisteredClientRecordsAssessment | accounts/forms.py:14-19 | a visitor who registers as CLIENT is signed in and can record an assessment that breaks the role limits |
| Intake.SearchFindsClient | accounts/views.py:42-46 | searching an existing CLIENT's code leads to that client's assessment form |
| Intake.SearchSkipsStaff | accounts/views.py:43 | a code held only by a non-CLIENT user is not matched, and the search leads to client creation |
| Intake.ClientFormFlagsOnlyHeldCodes | accounts/forms.py:156-159 | the client form flags a ten-character code without null characters exactly when some user holds it |
| Intake.SearchMissPrefillsCreation | accounts/views.py:48 | the code a search miss carries pre-fills the creation form, which flags it exactly when some user holds it |
| Intake.SearchMissOnHeldCode | accounts/views.py:43-48 | a search miss on a code in use means a non-CLIENT user holds it |
| Intake.ShortCodeClientUnreachable | accounts/forms.py:156-159 | the client form stores a client under the code "123", which is not a valid search code |
| Intake.SearchNeedsTenDigitCode | accounts/views.py:41-46 | search never reaches a user whose code is not ten digits |
| Intake.ClientCreateRejectsCodeInUse | accounts/models.py:16 | client creation with a code already in use is refused on that field and writes nothing |
| Intake.RegisterRejectsCodeInUse | accounts/models.py:16 | registration with a code already in use is refused on that field and writes nothing |
| Intake.DeleteUserKeepsValid | accounts/models.py:43-64 | deleting an unreferenced user keeps the database valid |
| Intake.SavedAssessmentProtectsItsUsers | accounts/models.py:43-56 | after an assessment is saved, neither its client nor its creator can be deleted |
| Intake.AsWrittenRefusesEveryValidSubmission | accounts/views.py:82 | as written, every complete valid submission ends in a server error with nothing saved, where the corrected view saves it |
| Intake.AsWrittenRefusesWrittenFormSubmission | accounts/views.py:74-83 | as written, every submission the form accepts, whether or not it carries a parent total, ends in a server error with nothing saved and the user still signed in |
| Intake.DetailShowsSubmission | accounts/views.py:88-91 | the detail page of a new assessment shows the submitted date, scores, ratings, total and stripped notes |
| Intake.SearchMissOnFreeCode | accounts/views.py:48 | a valid code nobody holds leads to client creation carrying the stripped code |
| Intake.CreatedClientRecord | accounts/forms.py:177-185 | a created client is stored as CLIENT under the submitted code, with username "client_" followed by the code |
| Intake.NewClientIntake | accounts/views.py:37-66 | searching a free code leads to client creation, which succeeds exactly when the client form is accepted and then stores a CLIENT under that code with the derived username |
| Intake.AssessClient | accounts/views.py:69-91 | staff recording a client's assessment keeps the database valid, the detail page shows the row, and a later search for the code leads back to the client |

## Left out

- Passwords: `UserCreationForm`'s two password fields, their match and strength checks, and hashing are Django code outside the repository.
- Username rules: the register form's username is required and at most 150 characters. Django's username character validators and its uniqueness check are not modelled. The store does not enforce unique usernames. So where `client_create` derives a username `client_<code>` that already exists, the model lets the creation succeed, while the database's unique `AbstractUser.username` would refuse it with an uncaught IntegrityError, a server error.
- Email: `EmailField` format validation is outside the repository; the email is only stripped and checked for null characters.
- Dates and numbers: dates arrive parsed (`Option<Date>`), and an unparseable date is a missing one. Scores arrive as integers, and a non-integer is a missing score. The parent total (`parent_total_score`, a `FloatField`) arrives as a number: parsing its text and Django's refusal of NaN and infinite values are not modelled, so the total is only required to be present.
- Sessions and presentation: the `login` call (only its effect, the signed-in user, is modelled), `messages`, templates, widgets, labels, CSS classes and the styling loop in `TalentAssessmentForm.__init__`.
- Other views and routes: `home`, `questionnaires_home` and accounts/urls.py.
- HTTP methods: only GET and POST are modelled, so `register`'s 405 answer to other methods is not.
- Unbound forms: an entirely empty POST body makes a form unbound (`request.POST or None`), and such a form is shown without errors. The model treats every POST as bound.
- Timestamps and the coach total: `created_at` and the nullable, never-set `coach_total_score` are not modelled.
- Concurrency: the race between two simultaneous creations with the same code. The model covers only the sequential uniqueness refusal.
- Forms.RegisterFormClean: the stored username is the stripped input. `RegisterForm` declares its own `class Meta:` (accounts/forms.py:80) without inheriting `UserCreationForm.Meta`, so `UsernameField` is not used and the username is the model's plain `CharField(max_length=150)`. Django still NFKC-normalizes it in `AbstractBaseUser.clean()`, which `ModelForm._post_clean` runs through `instance.full_clean()` after the 150-character check (a fullwidth "ｓａｒａ" is stored as "sara"). Unicode normalization is not modelled, so the username clause matches Django only for input that NFKC leaves unchanged.
- Forms.CleanScore: the range 0..32767 is Django's default `PositiveSmallIntegerField` range, as on PostgreSQL. MySQL allows 0..65535 and SQLite's bounds differ; the repository names no database backend, so the model assumes the default.
- Views.TalentStart: its contract for a match names a CLIENT holding the code but not which one. `Database.FindClient` states that it is the smallest key.

## Findings

| source | as written | input that shows it | evidently intended | confidence | as-written member | corrected member |
|---|---|---|---|---|---|---|
| accounts/forms.py:194-202 | `TalentAssessmentForm` omits `parent_total_score`, which accounts/models.py:80 declares as a NOT NULL `FloatField` with no default. `ta.save()` then inserts NULL, the database refuses it, and `talent_new` does not catch the error | any complete POST to `talent_new` for an existing CLIENT: valid date, eight scores in 0..32767, four peer codes | the parent total is a required form field, so a valid submission is saved | not executed; the migrations are not part of this model | Views.TalentNewAsWritten, Forms.AssessmentFormAsWritten, Intake.AsWrittenRefusesEveryValidSubmission, Intake.AsWrittenRefusesWrittenFormSubmission | Views.TalentNew, Forms.AssessmentForm, Intake.DetailShowsSubmission |

=== FILE: database.dfy ===
/** The database behind the two models: two tables keyed by auto-increment
    primary keys, with the constraints the schema makes the database
    enforce (unique national code, foreign keys that must resolve and that
    protect the rows they point at, NOT NULL columns). The role limits on
    the foreign keys are form-level declarations that the database does not
    enforce; they are kept apart as `RoleLimitsRespected`. */
module Database {
  import opened Options
  import opened Models

  datatype Store = Store(
    users: map<UserId, User>,
    assessments: map<AssessmentId, Assessment>,
    nextUserId: nat,
    nextAssessmentId: nat)

  /** The reasons the database refuses a write or a lookup. */
  datatype DbError = UniqueViolation | NotNullViolation | ForeignKeyViolation | ProtectedReference | DoesNotExist

  datatype Result<T> = Ok(value: T) | Err(error: DbError)

  /** An empty database; the first key handed out is 1. */
  const Empty: Store := Store(map[], map[], 1, 1)

  predicate CodeInUse(users: map<UserId, User>, code: string) {
    exists id :: id in users && users[id].nationalCode == code
  }

  /** `national_code` is declared `unique=True`. */
  predicate UniqueCodes(users: map<UserId, User>) {
    forall a, b :: a in users && b in users && a != b ==> users[a].nationalCode != users[b].nationalCode
  }

  /** Every key in use was handed out by the table's counter. */
  predicate KeysIssued(s: Store) {
    && (forall id :: id in s.users ==> id < s.nextUserId)
    && (forall id :: id in s.assessments ==> id < s.nextAssessmentId)
  }

  predicate ReferencesResolve(s: Store) {
    forall id :: id in s.assessments ==> s.assessments[id].References() <= s.users.Keys
  }

  /** `parent_total_score` has no `null=True`. */
  predicate TotalsPresent(s: Store) {
    forall id :: id in s.assessments ==> s.assessments[id].parentTotal.Some?
  }

  /** What the database itself guarantees of every state it is in. */
  predicate Consistent(s: Store) {
    UniqueCodes(s.users) && KeysIssued(s) && ReferencesResolve(s) && TotalsPresent(s)
  }

  /** The `limit_choices_to` declarations hold of every stored assessment. */
  predicate RoleLimitsRespected(s: Store)
    requires ReferencesResolve(s)
  {
    forall id :: id in s.assessments ==> RoleLimitsHold(s.users, s.assessments[id])
  }

  predicate Valid(s: Store) {
    Consistent(s) && RoleLimitsRespected(s)
  }

  /** Inserting a user row: refused when its national code is taken,
      otherwise stored under a fresh key with nothing else changed. */
  function InsertUser(s: Store, u: User): (r: Result<(Store, UserId)>)
    requires KeysIssued(s)
    ensures r.Err? <==> CodeInUse(s.users, u.nationalCode)
    ensures r.Err? ==> r.error == UniqueViolation
    ensures r.Ok? ==>
      var (t, id) := r.value;
      && id !in s.users
      && t.users == s.users[id := u]
      && t.assessments == s.assessments
    ensures r.Ok? ==> KeysIssued(r.value.0)
  {
    if CodeInUse(s.users, u.nationalCode) then Err(UniqueViolation)
    else
      var id := s.nextUserId;
      Ok((s.(users := s.users[id := u], nextUserId := id + 1), id))
  }

  predicate IsClientWithCode(s: Store, id: UserId, code: string) {
    id in s.users && s.users[id].role == Client && s.users[id].nationalCode == code
  }

  /** The first key at or above `from` that holds a CLIENT with `code`. */
  function FirstClientFrom(s: Store, code: string, from: nat): (r: Option<UserId>)
    ensures r.Some? ==>
      && from <= r.value
      && IsClientWithCode(s, r.value, code)
      && forall id :: from <= id < r.value ==> !IsClientWithCode(s, id, code)
    ensures r.None? ==> forall id :: from <= id < s.nextUserId ==> !IsClientWithCode(s, id, code)
    decreases s.nextUserId - from
  {
    if from >= s.nextUserId then None
    else if IsClientWithCode(s, from, code) then Some(from)
    else FirstClientFrom(s, code, from + 1)
  }

  /** `User.objects.filter(role=CLIENT, national_code=code).first()`: the
      matching user with the smallest key, if any. */
  function FindClient(s: Store, code: string): (r: Option<UserId>)
    requires KeysIssued(s)
    ensures r.Some? ==>
      && IsClientWithCode(s, r.value, code)
      && forall id: UserId :: id < r.value ==> !IsClientWithCode(s, id, code)
    ensures r.None? <==> forall id: UserId :: !IsClientWithCode(s, id, code)
  {
    FirstClientFrom(s, code, 0)
  }

  /** With unique national codes the search is exact: it finds a user iff
      that user is a CLIENT holding the code. */
  lemma FindClientExact(s: Store, code: string, id: UserId)
    requires Consistent(s)
    ensures FindClient(s, code) == Some(id) <==> IsClientWithCode(s, id, code)
  {
    if IsClientWithCode(s, id, code) {
      var found := FindClient(s, code);
      assert found.Some?;
    }
  }

  /** Saving an assessment row: refused when the NOT NULL total is missing
      or a foreign key does not resolve, otherwise stored under a fresh key
      with nothing else changed. */
  function InsertAssessment(s: Store, a: Assessment): (r: Result<(Store, AssessmentId)>)
    requires KeysIssued(s)
    ensures r.Err? <==> a.parentTotal.None? || !(a.References() <= s.users.Keys)
    ensures r.Err? && a.parentTotal.None? ==> r.error == NotNullViolation
    ensures r.Ok? ==>
      var (t, id) := r.value;
      && id !in s.assessments
      && t.assessments == s.assessments[id := a]
      && t.users == s.users
    ensures r.Ok? ==> KeysIssued(r.value.0)
  {
    if a.parentTotal.None? then Err(NotNullViolation)
    else if !(a.References() <= s.users.Keys) then Err(ForeignKeyViolation)
    else
      var id := s.nextAssessmentId;
      Ok((s.(assessments := s.assessments[id := a], nextAssessmentId := id + 1), id))
  }

  /** `TalentAssessment.objects.get(pk=id)`. */
  function GetAssessment(s: Store, id: AssessmentId): (r: Result<Assessment>)
    ensures r.Err? <==> id !in s.assessments
    ensures r.Err? ==> r.error == DoesNotExist
    ensures r.Ok? ==> id in s.assessments && r.value == s.assessments[id]
  {
    if id in s.assessments then Ok(s.assessments[id]) else Err(DoesNotExist)
  }

  predicate IsReferenced(s: Store, id: UserId) {
    exists aid :: aid in s.assessments && id in s.assessments[aid].References()
  }

  /** Deleting a user: the three foreign keys are `on_delete=PROTECT`, so a
      user that any assessment points at as client, creator or assessor is
      refused. */
  function DeleteUser(s: Store, id: UserId): (r: Result<Store>)
    ensures r.Err? <==> id !in s.users || IsReferenced(s, id)
    ensures id in s.users && IsReferenced(s, id) ==> r == Err(ProtectedReference)
    ensures r.Ok? ==> r.value.users == s.users - {id} && r.value.assessments == s.assessments
  {
    if id !in s.users then Err(DoesNotExist)
    else if IsReferenced(s, id) then Err(ProtectedReference)
    else Ok(s.(users := s.users - {id}))
  }
}

=== FILE: forms.dfy ===
/** The forms of accounts/forms.py: the field cleaners (national code,
    phone), the register, client-search, client-create and talent-assessment
    forms, and the client form's `save`. A bound form either yields its
    cleaned value or the set of fields that failed; it never writes. */
module Forms {
  import opened Options
  import opened Text
  import opened Models
  import Database

  /** The form fields a validation error can be attached to. */
  datatype Field =
    | UsernameField
    | RoleField
    | NationalCodeField
    | PhoneField
    | FullNameField
    | DateOfBirthField
    | GenderField
    | EmailField
    | BioField
    | AssessmentDateField
    | CoachScoreField(domain: Domain)
    | ParentScoreField(domain: Domain)
    | ParentTotalField
    | PeerField(domain: Domain)
    | NotesField

  /** The outcome of `form.is_valid()`: the cleaned value, or the fields in
      error (never an empty set). */
  datatype Cleaned<T> = Accepted(value: T) | Rejected(errors: set<Field>)

  const NationalCodeLength: nat := 10
  const MinPhoneDigits: nat := 10
  const MaxPhoneLength: nat := 20
  const MaxNameLength: nat := 150

  /** Django's `ProhibitNullCharactersValidator`, which every
      `forms.CharField` runs. */
  predicate NulFree(s: string) {
    '\0' !in s
  }

  /** Django's `forms.CharField.clean`: a missing value reads as "", the
      value is stripped, then checked against `required`, `max_length` and
      the null-character validator. */
  function CharFieldClean(raw: Option<string>, required: bool, maxLength: nat): (r: Option<string>)
    ensures r.Some? <==>
      && (required ==> Strip(raw.GetOr("")) != "")
      && |Strip(raw.GetOr(""))| <= maxLength
      && NulFree(Strip(raw.GetOr("")))
    ensures r.Some? ==> r.value == Strip(raw.GetOr(""))
  {
    var v := Strip(raw.GetOr(""));
    if required && v == "" then None
    else if |v| > maxLength then None
    else if !NulFree(v) then None
    else Some(v)
  }

  /** A value the field layer would leave as it is passes through it
      unchanged. */
  lemma CharFieldKeepsCleanValue(v: string, required: bool, maxLength: nat)
    requires Unpadded(v) && NulFree(v)
    requires required ==> v != ""
    requires |v| <= maxLength
    ensures CharFieldClean(Some(v), required, maxLength) == Some(v)
  {
    assert Some(v).GetOr("") == v;
  }

  /** An optional `forms.CharField` with no `max_length` (the form field of
      a `TextField` with `blank=True`, or the register form's `bio` and
      `email`): stripped, and refused only for a null character. */
  function OptionalTextClean(raw: Option<string>): (r: Option<string>)
    ensures r.Some? <==> NulFree(Strip(raw.GetOr("")))
    ensures r.Some? ==> r.value == Strip(raw.GetOr(""))
  {
    var v := Strip(raw.GetOr(""));
    if NulFree(v) then Some(v) else None
  }

  /** A choice field: a missing value reads as "", which is no choice. */
  function ChoiceValue(raw: Option<string>): string {
    raw.GetOr("")
  }

  // ---------------------------------------------------------------------
  // National code
  // ---------------------------------------------------------------------

  /** Exactly ten characters, every one a digit: the rule of the forms'
      own `clean_national_code`. */
  predicate IsTenDigits(s: string, isDigit: DigitTest) {
    |s| == NationalCodeLength && AllDigits(s, isDigit)
  }

  /** What a national-code field accepts as a whole: ten digits and no null
      character (which Python's `isdigit` never accepts anyway). */
  predicate IsNationalCode(s: string, isDigit: DigitTest) {
    IsTenDigits(s, isDigit) && NulFree(s)
  }

  /** `RegisterForm.clean_national_code`: a missing value counts as "", the
      value is stripped, and it passes only as a ten-digit string. */
  function CleanNationalCode(raw: Option<string>, isDigit: DigitTest): (r: Option<string>)
    ensures r.Some? <==> IsTenDigits(Strip(raw.GetOr("")), isDigit)
    ensures r.Some? ==> r.value == Strip(raw.GetOr(""))
  {
    var nc := Strip(raw.GetOr(""));
    if !IsDigitString(nc, isDigit) || |nc| != NationalCodeLength then None else Some(nc)
  }

  /** A missing national code is refused like an empty one. */
  lemma MissingNationalCodeRejected(isDigit: DigitTest)
    ensures CleanNationalCode(None, isDigit) == None
    ensures CleanNationalCode(Some(""), isDigit) == None
  {
  }

  /** A cleaned national code passes the cleaner again unchanged. */
  lemma CleanNationalCodeStable(raw: Option<string>, isDigit: DigitTest)
    requires CleanNationalCode(raw, isDigit).Some?
    ensures CleanNationalCode(Some(CleanNationalCode(raw, isDigit).value), isDigit) == CleanNationalCode(raw, isDigit)
  {
    StripIdempotent(raw.GetOr(""));
  }

  /** `ClientSearchForm.clean_national_code`: the same ten-digit rule on a
      value the field has already supplied. */
  function CleanSearchCode(nc: string, isDigit: DigitTest): (r: Option<string>)
    ensures r.Some? <==> IsTenDigits(Strip(nc), isDigit)
    ensures r.Some? ==> r.value == Strip(nc)
  {
    var v := Strip(nc);
    if !IsDigitString(v, isDigit) || |v| != NationalCodeLength then None else Some(v)
  }

  /** The search form and the register form accept the same codes and
      clean them to the same value. */
  lemma SearchAndRegisterCodeRulesAgree(nc: string, isDigit: DigitTest)
    ensures CleanSearchCode(nc, isDigit) == CleanNationalCode(Some(nc), isDigit)
  {
  }

  /** The national-code field of the register form: `CharField(max_length=10,
      required=True)` and then `clean_national_code`. Beyond the cleaner's
      ten-digit rule, the field layer adds only its null-character check. */
  function RegisterCodeField(raw: Option<string>, isDigit: DigitTest): (r: Option<string>)
    ensures r.Some? <==> IsNationalCode(Strip(raw.GetOr("")), isDigit)
    ensures r.Some? ==> r.value == Strip(raw.GetOr(""))
  {
    match CharFieldClean(raw, true, NationalCodeLength)
    case None => None
    case Some(v) => CleanNationalCode(Some(v), isDigit)
  }

  /** The national-code field of the client-search form: the same field
      layer and then the form's own cleaner. */
  function SearchCodeField(raw: Option<string>, isDigit: DigitTest): (r: Option<string>)
    ensures r.Some? <==> IsNationalCode(Strip(raw.GetOr("")), isDigit)
    ensures r.Some? ==> r.value == Strip(raw.GetOr(""))
  {
    match CharFieldClean(raw, true, NationalCodeLength)
    case None => None
    case Some(v) => CleanSearchCode(v, isDigit)
  }

  // ---------------------------------------------------------------------
  // Phone
  // ---------------------------------------------------------------------

  /** `RegisterForm.clean_phone`: keep only the digits of the stripped
      value; refuse when fewer than ten remain. The result is the digits of
      the input, every one of them, in order. */
  function CleanPhone(raw: Option<string>, isDigit: DigitTest): (r: Option<string>)
    ensures r.None? <==> |KeepDigits(Strip(raw.GetOr("")), isDigit)| < MinPhoneDigits
    ensures r.Some? ==> |r.value| >= MinPhoneDigits && IsDigitsOf(r.value, Strip(raw.GetOr("")), isDigit)
  {
    var ph := Strip(raw.GetOr(""));
    var digits := KeepDigits(ph, isDigit);
    KeepDigitsIsDigitsOf(ph, isDigit);
    if |digits| < MinPhoneDigits then None else Some(digits)
  }

  /** Since stripping removes only whitespace, an accepted phone is also
      exactly the digits of the raw, unstripped input. */
  lemma CleanPhoneKeepsInputDigits(raw: string, isDigit: DigitTest)
    requires NoSpaceIsDigit(isDigit)
    requires CleanPhone(Some(raw), isDigit).Some?
    ensures IsDigitsOf(CleanPhone(Some(raw), isDigit).value, raw, isDigit)
  {
    KeepDigitsIgnoresStrip(raw, isDigit);
    KeepDigitsIsDigitsOf(raw, isDigit);
  }

  /** Cleaning an already cleaned phone returns it unchanged. */
  lemma CleanPhoneIdempotent(raw: Option<string>, isDigit: DigitTest)
    requires NoSpaceIsDigit(isDigit)
    requires CleanPhone(raw, isDigit).Some?
    ensures CleanPhone(Some(CleanPhone(raw, isDigit).value), isDigit) == CleanPhone(raw, isDigit)
  {
    var v := CleanPhone(raw, isDigit).value;
    assert !IsSpace(v[0]) && !IsSpace(v[|v| - 1]);
    assert Strip(v) == v;
  }

  /** The phone field of the register form: `CharField(max_length=20,
      required=True)` and then `clean_phone`. */
  function RegisterPhoneField(raw: Option<string>, isDigit: DigitTest): (r: Option<string>)
    ensures r.Some? <==>
      && |Strip(raw.GetOr(""))| <= MaxPhoneLength
      && NulFree(Strip(raw.GetOr("")))
      && |KeepDigits(Strip(raw.GetOr("")), isDigit)| >= MinPhoneDigits
    ensures r.Some? ==>
      && MinPhoneDigits <= |r.value| <= MaxPhoneLength
      && IsDigitsOf(r.value, Strip(raw.GetOr("")), isDigit)
  {
    match CharFieldClean(raw, true, MaxPhoneLength)
    case None => None
    case Some(v) => CleanPhone(Some(v), isDigit)
  }

  // ---------------------------------------------------------------------
  // RegisterForm
  // ---------------------------------------------------------------------

  /** The submitted register form; `None` is a field left out of the POST. */
  datatype RegisterInput = RegisterInput(
    username: Option<string>,
    role: Option<string>,
    nationalCode: Option<string>,
    phone: Option<string>,
    fullName: Option<string>,
    dateOfBirth: Option<Date>,
    gender: Option<string>,
    email: Option<string>,
    bio: Option<string>)

  /** The fields the register form validates (the passwords are not part
      of this model). */
  const RegisterFields: set<Field> :=
    {UsernameField, RoleField, NationalCodeField, PhoneField, FullNameField, DateOfBirthField, GenderField, EmailField, BioField}

  /** Each register field after its own cleaner, and whether the cleaned
      national code is already held by a stored user (the model form's
      uniqueness check). */
  datatype RegisterFieldValues = RegisterFieldValues(
    username: Option<string>,
    role: Option<Role>,
    nationalCode: Option<string>,
    codeTaken: bool,
    phone: Option<string>,
    fullName: Option<string>,
    dateOfBirth: Option<Date>,
    gender: Option<Gender>,
    email: Option<string>,
    bio: Option<string>)

  function CleanRegisterFields(users: map<UserId, User>, input: RegisterInput, isDigit: DigitTest): (v: RegisterFieldValues)
    ensures v.codeTaken <==> v.nationalCode.Some? && Database.CodeInUse(users, v.nationalCode.value)
  {
    var code := RegisterCodeField(input.nationalCode, isDigit);
    RegisterFieldValues(
      CharFieldClean(input.username, true, MaxNameLength),
      ParseRole(ChoiceValue(input.role)),
      code,
      code.Some? && Database.CodeInUse(users, code.value),
      RegisterPhoneField(input.phone, isDigit),
      CharFieldClean(input.fullName, true, MaxNameLength),
      input.dateOfBirth,
      ParseGender(ChoiceValue(input.gender)),
      OptionalTextClean(input.email),
      OptionalTextClean(input.bio))
  }

  predicate RegisterFieldFails(v: RegisterFieldValues, f: Field) {
    match f
    case UsernameField => v.username.None?
    case RoleField => v.role.None?
    case NationalCodeField => v.nationalCode.None? || v.codeTaken
    case PhoneField => v.phone.None?
    case FullNameField => v.fullName.None?
    case DateOfBirthField => v.dateOfBirth.None?
    case GenderField => v.gender.None?
    case EmailField => v.email.None?
    case BioField => v.bio.None?
    case _ => false
  }

  function RegisterErrors(v: RegisterFieldValues): (r: set<Field>)
    ensures r <= RegisterFields
    ensures NationalCodeField in r <==> v.nationalCode.None? || v.codeTaken
    ensures RoleField in r <==> v.role.None?
    ensures r == {} <==>
      && v.username.Some? && v.role.Some? && v.nationalCode.Some? && !v.codeTaken
      && v.phone.Some? && v.fullName.Some? && v.dateOfBirth.Some? && v.gender.Some?
      && v.email.Some? && v.bio.Some?
  {
    var r := set f | f in RegisterFields && RegisterFieldFails(v, f);
    assert UsernameField in r <==> RegisterFieldFails(v, UsernameField);
    assert RoleField in r <==> RegisterFieldFails(v, RoleField);
    assert NationalCodeField in r <==> RegisterFieldFails(v, NationalCodeField);
    assert PhoneField in r <==> RegisterFieldFails(v, PhoneField);
    assert FullNameField in r <==> RegisterFieldFails(v, FullNameField);
    assert DateOfBirthField in r <==> RegisterFieldFails(v, DateOfBirthField);
    assert GenderField in r <==> RegisterFieldFails(v, GenderField);
    assert EmailField in r <==> RegisterFieldFails(v, EmailField);
    assert BioField in r <==> RegisterFieldFails(v, BioField);
    r
  }

  /** `RegisterForm.is_valid()` followed by `RegisterForm.save()`: the user
      the form would store, with the role the registrant chose, or the
      fields in error. */
  function RegisterFormClean(users: map<UserId, User>, input: RegisterInput, isDigit: DigitTest): (r: Cleaned<User>)
    ensures r.Rejected? ==> r.errors != {} && r.errors <= RegisterFields
    ensures r.Accepted? ==>
      && RoleCode(r.value.role) == ChoiceValue(input.role)
      && r.value.nationalCode == Strip(input.nationalCode.GetOr(""))
      && IsNationalCode(r.value.nationalCode, isDigit)
      && !Database.CodeInUse(users, r.value.nationalCode)
      && MinPhoneDigits <= |r.value.phone| <= MaxPhoneLength
      && IsDigitsOf(r.value.phone, Strip(input.phone.GetOr("")), isDigit)
      && r.value.fullName == Strip(input.fullName.GetOr("")) != ""
      && input.dateOfBirth == Some(r.value.dateOfBirth)
      && GenderCode(r.value.gender) == ChoiceValue(input.gender)
      && r.value.username == Strip(input.username.GetOr("")) != ""
      && r.value.email == Strip(input.email.GetOr(""))
      && r.value.bio == Strip(input.bio.GetOr(""))
  {
    var v := CleanRegisterFields(users, input, isDigit);
    var errors := RegisterErrors(v);
    if errors != {} then Rejected(errors)
    else
      Accepted(User(
        username := v.username.value,
        role := v.role.value,
        nationalCode := v.nationalCode.value,
        phone := v.phone.value,
        fullName := v.fullName.value,
        dateOfBirth := v.dateOfBirth.value,
        gender := v.gender.value,
        email := v.email.value,
        bio := v.bio.value))
  }

  /** The register form flags the national code exactly when it is not a
      ten-digit string or another user already holds it, and flags the role
      exactly when it is none of the four codes. */
  lemma RegisterErrorsExact(users: map<UserId, User>, input: RegisterInput, isDigit: DigitTest)
    ensures RegisterFormClean(users, input, isDigit).Rejected? ==>
      var errors := RegisterFormClean(users, input, isDigit).errors;
      && (NationalCodeField in errors <==>
            || !IsNationalCode(Strip(input.nationalCode.GetOr("")), isDigit)
            || Database.CodeInUse(users, Strip(input.nationalCode.GetOr(""))))
      && (RoleField in errors <==> forall x :: RoleCode(x) != ChoiceValue(input.role))
  {
  }

  /** The register form accepts exactly when every field passes its own
      cleaner and no stored user holds the national code. */
  lemma RegisterFormAcceptsCleanFields(users: map<UserId, User>, input: RegisterInput, isDigit: DigitTest)
    ensures RegisterFormClean(users, input, isDigit).Accepted? <==>
      && CharFieldClean(input.username, true, MaxNameLength).Some?
      && ParseRole(ChoiceValue(input.role)).Some?
      && IsNationalCode(Strip(input.nationalCode.GetOr("")), isDigit)
      && !Database.CodeInUse(users, Strip(input.nationalCode.GetOr("")))
      && RegisterPhoneField(input.phone, isDigit).Some?
      && CharFieldClean(input.fullName, true, MaxNameLength).Some?
      && input.dateOfBirth.Some?
      && ParseGender(ChoiceValue(input.gender)).Some?
      && OptionalTextClean(input.email).Some?
      && OptionalTextClean(input.bio).Some?
  {
  }

  // ---------------------------------------------------------------------
  // ClientCreateForm
  // ---------------------------------------------------------------------

  /** The submitted client form. The form lists neither `username` nor
      `role`, and its national code has no digit check of its own. */
  datatype ClientInput = ClientInput(
    nationalCode: Option<string>,
    phone: Option<string>,
    fullName: Option<string>,
    dateOfBirth: Option<Date>,
    gender: Option<string>,
    bio: Option<string>)

  const ClientFields: set<Field> :=
    {NationalCodeField, PhoneField, FullNameField, DateOfBirthField, GenderField, BioField}

  /** Each client field after the cleaner its model field implies
      (`max_length`, `blank`, choices), and whether the cleaned national
      code is already held by a stored user. */
  datatype ClientFieldValues = ClientFieldValues(
    nationalCode: Option<string>,
    codeTaken: bool,
    phone: Option<string>,
    fullName: Option<string>,
    dateOfBirth: Option<Date>,
    gender: Option<Gender>,
    bio: Option<string>)

  function CleanClientFields(users: map<UserId, User>, input: ClientInput): (v: ClientFieldValues)
    ensures v.codeTaken <==> v.nationalCode.Some? && Database.CodeInUse(users, v.nationalCode.value)
  {
    var code := CharFieldClean(input.nationalCode, true, NationalCodeLength);
    ClientFieldValues(
      code,
      code.Some? && Database.CodeInUse(users, code.value),
      CharFieldClean(input.phone, false, MaxPhoneLength),
      CharFieldClean(input.fullName, true, MaxNameLength),
      input.dateOfBirth,
      ParseGender(ChoiceValue(input.gender)),
      OptionalTextClean(input.bio))
  }

  predicate ClientFieldFails(v: ClientFieldValues, f: Field) {
    match f
    case NationalCodeField => v.nationalCode.None? || v.codeTaken
    case PhoneField => v.phone.None?
    case FullNameField => v.fullName.None?
    case DateOfBirthField => v.dateOfBirth.None?
    case GenderField => v.gender.None?
    case BioField => v.bio.None?
    case _ => false
  }

  function ClientErrors(v: ClientFieldValues): (r: set<Field>)
    ensures r <= ClientFields
    ensures NationalCodeField in r <==> v.nationalCode.None? || v.codeTaken
    ensures r == {} <==>
      && v.nationalCode.Some? && !v.codeTaken
      && v.phone.Some? && v.fullName.Some? && v.dateOfBirth.Some? && v.gender.Some? && v.bio.Some?
  {
    var r := set f | f in ClientFields && ClientFieldFails(v, f);
    assert NationalCodeField in r <==> ClientFieldFails(v, NationalCodeField);
    assert PhoneField in r <==> ClientFieldFails(v, PhoneField);
    assert FullNameField in r <==> ClientFieldFails(v, FullNameField);
    assert DateOfBirthField in r <==> ClientFieldFails(v, DateOfBirthField);
    assert GenderField in r <==> ClientFieldFails(v, GenderField);
    assert BioField in r <==> ClientFieldFails(v, BioField);
    r
  }

  /** `ClientCreateForm.is_valid()` and the unsaved instance it builds: the
      model's field limits and national-code uniqueness are checked, the
      username is still empty and the role is the model default. */
  function ClientFormClean(users: map<UserId, User>, input: ClientInput): (r: Cleaned<User>)
    ensures r.Rejected? ==> r.errors != {} && r.errors <= ClientFields
    ensures r.Rejected? ==>
      (NationalCodeField in r.errors <==>
         var code := Strip(input.nationalCode.GetOr(""));
         code == "" || |code| > NationalCodeLength || !NulFree(code) || Database.CodeInUse(users, code))
    ensures r.Accepted? ==>
      && r.value.username == ""
      && r.value.role == DefaultRole
      && r.value.nationalCode == Strip(input.nationalCode.GetOr(""))
      && 0 < |r.value.nationalCode| <= NationalCodeLength && NulFree(r.value.nationalCode)
      && !Database.CodeInUse(users, r.value.nationalCode)
      && r.value.phone == Strip(input.phone.GetOr("")) && |r.value.phone| <= MaxPhoneLength
      && r.value.fullName == Strip(input.fullName.GetOr("")) != ""
      && input.dateOfBirth == Some(r.value.dateOfBirth)
      && GenderCode(r.value.gender) == ChoiceValue(input.gender)
      && r.value.email == "" && r.value.bio == Strip(input.bio.GetOr(""))
  {
    var v := CleanClientFields(users, input);
    var errors := ClientErrors(v);
    if errors != {} then Rejected(errors)
    else
      Accepted(User(
        username := "",
        role := DefaultRole,
        nationalCode := v.nationalCode.value,
        phone := v.phone.value,
        fullName := v.fullName.value,
        dateOfBirth := v.dateOfBirth.value,
        gender := v.gender.value,
        email := "",
        bio := v.bio.value))
  }

  const ClientUsernamePrefix: string := "client_"

  /** `ClientCreateForm.save()`: the role becomes CLIENT whatever it was; an
      empty username becomes the prefix followed by the national code, a
      non-empty one is kept; nothing else changes. */
  function ClientFormSave(obj: User): (r: User)
    ensures r.role == Client
    ensures r == obj.(role := Client, username := r.username)
    ensures obj.username != "" ==> r.username == obj.username
    ensures obj.username == "" ==>
      && |r.username| == |ClientUsernamePrefix| + |obj.nationalCode|
      && r.username[..|ClientUsernamePrefix|] == ClientUsernamePrefix
      && r.username[|ClientUsernamePrefix|..] == obj.nationalCode
  {
    var name := if obj.username == "" then ClientUsernamePrefix + obj.nationalCode else obj.username;
    obj.(role := Client, username := name)
  }

  /** Saving twice is saving once: the derived username is non-empty, so a
      second save keeps it. */
  lemma ClientFormSaveIdempotent(obj: User)
    ensures ClientFormSave(ClientFormSave(obj)) == ClientFormSave(obj)
  {
  }

  // ---------------------------------------------------------------------
  // TalentAssessmentForm
  // ---------------------------------------------------------------------

  /** The submitted assessment form: a score or rating per domain (a domain
      missing from a map is a field left out of the POST), the parent total,
      which the form as written does not read, and the free-text notes. */
  datatype AssessmentInput = AssessmentInput(
    date: Option<Date>,
    coach: map<Domain, int>,
    parent: map<Domain, int>,
    parentTotal: Option<real>,
    peers: map<Domain, string>,
    notes: Option<string>)

  /** The cleaned assessment fields, before the view binds the users. */
  datatype AssessmentFields = AssessmentFields(
    date: Date,
    coach: Scores,
    parent: Scores,
    parentTotal: Option<real>,
    peers: PeerRatings,
    notes: string)

  /** A `PositiveSmallIntegerField` on a form: required, from 0 to 32767. */
  function CleanScore(raw: map<Domain, int>, d: Domain): (r: Option<Score>)
    ensures r.Some? <==> d in raw && 0 <= raw[d] <= MaxSmallScore
    ensures r.Some? ==> r.value == raw[d]
  {
    if d in raw && 0 <= raw[d] <= MaxSmallScore then Some(raw[d]) else None
  }

  /** A `PEER_STATUS_CHOICES` field on a form: required, one of the three codes. */
  function CleanPeer(raw: map<Domain, string>, d: Domain): (r: Option<Peer>)
    ensures r.Some? ==> d in raw && PeerCode(r.value) == raw[d]
    ensures d in raw && raw[d] in {"1", "1.5", "2"} ==> r.Some?
  {
    if d in raw then ParsePeer(raw[d]) else None
  }

  /** The fields `TalentAssessmentForm` lists. */
  const ListedAssessmentFields: set<Field> := {
    AssessmentDateField,
    CoachScoreField(Motor), CoachScoreField(Cognitive), CoachScoreField(Social), CoachScoreField(Emotional),
    ParentScoreField(Motor), ParentScoreField(Cognitive), ParentScoreField(Social), ParentScoreField(Emotional),
    PeerField(Motor), PeerField(Cognitive), PeerField(Social), PeerField(Emotional),
    NotesField}

  lemma ListedFieldsCoverDomains()
    ensures forall d ::
      && CoachScoreField(d) in ListedAssessmentFields
      && ParentScoreField(d) in ListedAssessmentFields
      && PeerField(d) in ListedAssessmentFields
  {
    forall d
      ensures CoachScoreField(d) in ListedAssessmentFields
      ensures ParentScoreField(d) in ListedAssessmentFields
      ensures PeerField(d) in ListedAssessmentFields
    {
      match d
      case Motor =>
      case Cognitive =>
      case Social =>
      case Emotional =>
    }
  }

  /** Every field `TalentAssessmentForm` lists cleans: the date is there,
      the notes hold no null character, and every domain has a score from
      each rater and a peer rating. */
  predicate ListedFieldsAllClean(input: AssessmentInput) {
    && input.date.Some?
    && NulFree(Strip(input.notes.GetOr("")))
    && forall d :: CleanScore(input.coach, d).Some? && CleanScore(input.parent, d).Some? && CleanPeer(input.peers, d).Some?
  }

  /** Whether field `f` of the assessment form fails its own cleaning; the
      notes are optional and fail only on a null character. */
  predicate AssessmentFieldFails(input: AssessmentInput, f: Field) {
    match f
    case AssessmentDateField => input.date.None?
    case CoachScoreField(d) => CleanScore(input.coach, d).None?
    case ParentScoreField(d) => CleanScore(input.parent, d).None?
    case PeerField(d) => CleanPeer(input.peers, d).None?
    case NotesField => !NulFree(Strip(input.notes.GetOr("")))
    case _ => false
  }

  /** The fields in error among those `TalentAssessmentForm` lists. */
  function ListedErrors(input: AssessmentInput): set<Field> {
    set f | f in ListedAssessmentFields && AssessmentFieldFails(input, f)
  }

  /** A coach score is flagged exactly when it does not clean. */
  lemma ListedErrorsCoach(input: AssessmentInput)
    ensures forall d :: CoachScoreField(d) in ListedErrors(input) <==> CleanScore(input.coach, d).None?
  {
    ListedFieldsCoverDomains();
  }

  /** A parent score is flagged exactly when it does not clean. */
  lemma ListedErrorsParent(input: AssessmentInput)
    ensures forall d :: ParentScoreField(d) in ListedErrors(input) <==> CleanScore(input.parent, d).None?
  {
    ListedFieldsCoverDomains();
  }

  /** A peer rating is flagged exactly when it is not one of the three
      codes. */
  lemma ListedErrorsPeer(input: AssessmentInput)
    ensures forall d :: PeerField(d) in ListedErrors(input) <==> CleanPeer(input.peers, d).None?
  {
    ListedFieldsCoverDomains();
  }

  /** The date and the notes are flagged exactly when they fail. */
  lemma ListedErrorsDateNotes(input: AssessmentInput)
    ensures AssessmentDateField in ListedErrors(input) <==> input.date.None?
    ensures NotesField in ListedErrors(input) <==> !NulFree(Strip(input.notes.GetOr("")))
  {
    assert AssessmentDateField in ListedAssessmentFields && NotesField in ListedAssessmentFields;
  }

  /** No field of a form whose listed fields all clean fails. */
  lemma CleanFieldsDoNotFail(input: AssessmentInput, f: Field)
    requires ListedFieldsAllClean(input)
    ensures !AssessmentFieldFails(input, f)
  {
    match f
    case CoachScoreField(d) =>
    case ParentScoreField(d) =>
    case PeerField(d) =>
    case _ =>
  }

  /** The listed fields have no error exactly when every one of them
      cleans. */
  lemma ListedErrorsExact(input: AssessmentInput)
    ensures ListedErrors(input) == {} <==> ListedFieldsAllClean(input)
  {
    var errors := ListedErrors(input);
    if errors == {} {
      ListedErrorsDateNotes(input);
      ListedErrorsCoach(input);
      ListedErrorsParent(input);
      ListedErrorsPeer(input);
      forall d
        ensures CleanScore(input.coach, d).Some? && CleanScore(input.parent, d).Some? && CleanPeer(input.peers, d).Some?
      {
        assert CoachScoreField(d) !in errors && ParentScoreField(d) !in errors && PeerField(d) !in errors;
      }
    }
    if ListedFieldsAllClean(input) {
      forall f | f in errors ensures false {
        CleanFieldsDoNotFail(input, f);
      }
    }
  }

  /** Each domain reads its own field of a score or rating record. */
  lemma ScoresFromFields(raw: map<Domain, int>, r: Scores)
    requires forall d :: CleanScore(raw, d).Some?
    requires r == Scores(
      CleanScore(raw, Motor).value, CleanScore(raw, Cognitive).value,
      CleanScore(raw, Social).value, CleanScore(raw, Emotional).value)
    ensures forall d :: d in raw && r.Of(d) == raw[d]
  {
    forall d ensures d in raw && r.Of(d) == raw[d] {
      assert CleanScore(raw, d).Some?;
      match d
      case Motor =>
      case Cognitive =>
      case Social =>
      case Emotional =>
    }
  }

  lemma PeersFromFields(raw: map<Domain, string>, r: PeerRatings)
    requires forall d :: CleanPeer(raw, d).Some?
    requires r == PeerRatings(
      CleanPeer(raw, Motor).value, CleanPeer(raw, Cognitive).value,
      CleanPeer(raw, Social).value, CleanPeer(raw, Emotional).value)
    ensures forall d :: d in raw && PeerCode(r.Of(d)) == raw[d]
  {
    forall d ensures d in raw && PeerCode(r.Of(d)) == raw[d] {
      assert CleanPeer(raw, d).Some?;
      match d
      case Motor =>
      case Cognitive =>
      case Social =>
      case Emotional =>
    }
  }

  /** The scores of every domain, taken from fields that cleaned. */
  function ScoresOf(raw: map<Domain, int>): (r: Scores)
    requires forall d :: CleanScore(raw, d).Some?
    ensures forall d :: d in raw && r.Of(d) == raw[d]
  {
    var r := Scores(
      CleanScore(raw, Motor).value, CleanScore(raw, Cognitive).value,
      CleanScore(raw, Social).value, CleanScore(raw, Emotional).value);
    ScoresFromFields(raw, r);
    r
  }

  /** The peer rating of every domain, taken from fields that cleaned. */
  function PeersOf(raw: map<Domain, string>): (r: PeerRatings)
    requires forall d :: CleanPeer(raw, d).Some?
    ensures forall d :: d in raw && PeerCode(r.Of(d)) == raw[d]
  {
    var r := PeerRatings(
      CleanPeer(raw, Motor).value, CleanPeer(raw, Cognitive).value,
      CleanPeer(raw, Social).value, CleanPeer(raw, Emotional).value);
    PeersFromFields(raw, r);
    r
  }

  /** `TalentAssessmentForm` as written: it lists the date, the eight
      domain scores, the four peer ratings and the notes, and not
      `parent_total_score`, so the instance it builds has no parent total
      whatever was submitted. */
  function AssessmentFormAsWritten(input: AssessmentInput): (r: Cleaned<AssessmentFields>)
    ensures r.Rejected? ==> r.errors != {} && r.errors <= ListedAssessmentFields
    ensures r.Accepted? <==> ListedFieldsAllClean(input)
    ensures r.Accepted? ==>
      && Some(r.value.date) == input.date
      && (forall d :: d in input.coach && r.value.coach.Of(d) == input.coach[d])
      && (forall d :: d in input.parent && r.value.parent.Of(d) == input.parent[d])
      && (forall d :: d in input.peers && PeerCode(r.value.peers.Of(d)) == input.peers[d])
      && r.value.parentTotal.None?
      && r.value.notes == Strip(input.notes.GetOr(""))
  {
    var errors := ListedErrors(input);
    ListedErrorsExact(input);
    if errors != {} then Rejected(errors)
    else
      Accepted(AssessmentFields(
        input.date.value, ScoresOf(input.coach), ScoresOf(input.parent), None,
        PeersOf(input.peers), Strip(input.notes.GetOr(""))))
  }

  /** A rejection by the written form names exactly the listed fields that
      fail: the date when it is missing, each score and peer rating that
      does not clean, and the notes when they hold a null character. */
  lemma AssessmentRejectionNamesFailures(input: AssessmentInput)
    ensures var r := AssessmentFormAsWritten(input);
      r.Rejected? ==>
        && (AssessmentDateField in r.errors <==> input.date.None?)
        && (forall d :: CoachScoreField(d) in r.errors <==> CleanScore(input.coach, d).None?)
        && (forall d :: ParentScoreField(d) in r.errors <==> CleanScore(input.parent, d).None?)
        && (forall d :: PeerField(d) in r.errors <==> CleanPeer(input.peers, d).None?)
        && (NotesField in r.errors <==> !NulFree(Strip(input.notes.GetOr(""))))
  {
    AsWrittenRejectsListedErrors(input);
    ListedErrorsDateNotes(input);
    ListedErrorsCoach(input);
    ListedErrorsParent(input);
    ListedErrorsPeer(input);
  }

  lemma AsWrittenRejectsListedErrors(input: AssessmentInput)
    ensures AssessmentFormAsWritten(input).Rejected? ==> AssessmentFormAsWritten(input).errors == ListedErrors(input)
  {
  }

  /** The assessment form with `parent_total_score` added as the required
      field the model declares: it accepts what the written form accepts
      when a total is supplied, and carries that total. */
  function AssessmentForm(input: AssessmentInput): (r: Cleaned<AssessmentFields>)
    ensures r.Rejected? ==> r.errors != {}
    ensures r.Accepted? <==> AssessmentFormAsWritten(input).Accepted? && input.parentTotal.Some?
    ensures r.Accepted? ==> r.value == AssessmentFormAsWritten(input).value.(parentTotal := input.parentTotal)
    ensures r.Rejected? ==> (ParentTotalField in r.errors <==> input.parentTotal.None?)
  {
    var totalErrors := if input.parentTotal.None? then {ParentTotalField} else {};
    match AssessmentFormAsWritten(input)
    case Rejected(errors) => Rejected(errors + totalErrors)
    case Accepted(f) =>
      if input.parentTotal.None? then Rejected(totalErrors)
      else Accepted(f.(parentTotal := input.parentTotal))
  }
}

=== FILE: intake.dfy ===
/** Properties of the intake workflow that span several requests: search a
    national code, create the client when none is found, record its
    assessment, read it back. Every view keeps the database consistent; the
    role limits on assessments survive only while staff record them. */
module Intake {
  import opened Options
  import opened Text
  import opened Models
  import opened Database
  import opened Forms
  import opened Views

  // ---------------------------------------------------------------------
  // Every view keeps the database valid
  // ---------------------------------------------------------------------

  /** Adding a user whose national code is free keeps every invariant:
      assessments only point at users that were already there, and those
      are unchanged. */
  lemma AddUserKeepsValid(s: Store, t: Store, id: UserId, u: User)
    requires Valid(s)
    requires id !in s.users && t.users == s.users[id := u] && t.assessments == s.assessments
    requires KeysIssued(t)
    requires !CodeInUse(s.users, u.nationalCode)
    ensures Valid(t)
  {
    assert ReferencesResolve(t);
    forall aid | aid in t.assessments
      ensures RoleLimitsHold(t.users, t.assessments[aid])
    {
      var a := t.assessments[aid];
      assert RoleLimitsHold(s.users, a);
      assert a.client in s.users && a.createdBy in s.users;
    }
  }

  lemma RegisterKeepsValid(s: Store, session: Session, verb: Method, input: RegisterInput, isDigit: DigitTest)
    requires Valid(s)
    ensures Valid(Register(s, session, verb, input, isDigit).store)
  {
    var r := Register(s, session, verb, input, isDigit);
    if r.store != s {
      AddUserKeepsValid(s, r.store, r.session.value, RegisterFormClean(s.users, input, isDigit).value);
    }
  }

  lemma ClientCreateKeepsValid(s: Store, session: Session, verb: Method, query: Option<string>, input: ClientInput)
    requires Valid(s)
    ensures Valid(ClientCreate(s, session, verb, query, input).store)
  {
    var r := ClientCreate(s, session, verb, query, input);
    if r.store != s {
      var id := r.page.clientId;
      AddUserKeepsValid(s, r.store, id, r.store.users[id]);
    }
  }

  /** Whoever submits it, an assessment saved by `talent_new` leaves the
      database consistent: its three users exist and its total is present. */
  lemma TalentNewKeepsConsistent(s: Store, session: Session, verb: Method, clientId: UserId, input: AssessmentInput)
    requires Consistent(s)
    requires SessionResolves(s, session)
    ensures Consistent(TalentNew(s, session, verb, clientId, input).store)
  {
    var r := TalentNew(s, session, verb, clientId, input);
    if r.page.DetailRedirect? {
      var id := r.page.assessmentId;
      var a := r.store.assessments[id];
      assert a.client == clientId && a.createdBy == session.value;
      assert a.References() <= s.users.Keys;
      assert a.parentTotal == input.parentTotal && a.parentTotal.Some?;
      forall aid | aid in r.store.assessments
        ensures r.store.assessments[aid].References() <= r.store.users.Keys
        ensures r.store.assessments[aid].parentTotal.Some?
      {
        if aid != id {
          assert r.store.assessments[aid] == s.assessments[aid];
        }
      }
    }
  }

  /** When the acting user holds a staff role, the saved assessment meets
      the `limit_choices_to` declarations too, so the database stays valid. */
  lemma TalentNewByStaffKeepsValid(s: Store, session: Session, verb: Method, clientId: UserId, input: AssessmentInput)
    requires Valid(s)
    requires SessionResolves(s, session)
    requires session.Some? ==> IsStaff(s.users[session.value].role)
    ensures Valid(TalentNew(s, session, verb, clientId, input).store)
  {
    TalentNewKeepsConsistent(s, session, verb, clientId, input);
    var r := TalentNew(s, session, verb, clientId, input);
    if r.page.DetailRedirect? {
      var id := r.page.assessmentId;
      var a := r.store.assessments[id];
      assert RoleLimitsHold(r.store.users, a);
      forall aid | aid in r.store.assessments
        ensures RoleLimitsHold(r.store.users, r.store.assessments[aid])
      {
        if aid != id {
          assert r.store.assessments[aid] == s.assessments[aid];
        }
      }
    }
  }

  /** `talent_new` never looks at the acting user's role, so a signed-in
      CLIENT (anyone may register with that role) records an assessment
      whose creator breaks the staff-only limit. */
  lemma TalentNewByClientBreaksRoleLimits(s: Store, actor: UserId, clientId: UserId, input: AssessmentInput)
    requires Consistent(s)
    requires actor in s.users && s.users[actor].role == Client
    requires clientId in s.users && s.users[clientId].role == Client
    requires AssessmentForm(input).Accepted?
    ensures var r := TalentNew(s, Some(actor), Post, clientId, input);
      && r.page.DetailRedirect?
      && Consistent(r.store)
      && !RoleLimitsRespected(r.store)
  {
    TalentNewKeepsConsistent(s, Some(actor), Post, clientId, input);
    var r := TalentNew(s, Some(actor), Post, clientId, input);
    var id := r.page.assessmentId;
    assert !RoleLimitsHold(r.store.users, r.store.assessments[id]);
  }

  /** The same from a fresh sign-up: the register form passes the chosen
      role through, so a visitor who picks CLIENT is stored as a CLIENT,
      signed in, and can record an assessment that breaks the limit. */
  lemma SelfRegisteredClientRecordsAssessment(s: Store, u: User, clientId: UserId, form: AssessmentInput)
    requires Consistent(s)
    requires u.role == Client && !CodeInUse(s.users, u.nationalCode)
    requires clientId in s.users && s.users[clientId].role == Client
    requires AssessmentForm(form).Accepted?
    ensures var signUp := RegisterWith(s, None, Post, Accepted(u));
      && signUp.session.Some?
      && var r := TalentNew(signUp.store, signUp.session, Post, clientId, form);
      && r.page.DetailRedirect?
      && !RoleLimitsRespected(r.store)
  {
    var signUp := RegisterWith(s, None, Post, Accepted(u));
    AddUserKeepsConsistent(s, signUp.store, signUp.session.value, u);
    TalentNewByClientBreaksRoleLimits(signUp.store, signUp.session.value, clientId, form);
  }

  /** The consistency half of `AddUserKeepsValid`, for databases whose role
      limits may already be broken. */
  lemma AddUserKeepsConsistent(s: Store, t: Store, id: UserId, u: User)
    requires Consistent(s)
    requires id !in s.users && t.users == s.users[id := u] && t.assessments == s.assessments
    requires KeysIssued(t)
    requires !CodeInUse(s.users, u.nationalCode)
    ensures Consistent(t)
  {
    assert ReferencesResolve(t);
  }

  // ---------------------------------------------------------------------
  // Search
  // ---------------------------------------------------------------------

  /** Searching the national code of an existing CLIENT leads to that
      client's assessment form. */
  lemma SearchFindsClient(s: Store, session: Session, code: string, id: UserId, isDigit: DigitTest)
    requires Consistent(s)
    requires session.Some?
    requires IsNationalCode(code, isDigit) && Unpadded(code)
    requires IsClientWithCode(s, id, code)
    ensures TalentStart(s, session, Post, Some(code), isDigit) == TalentNewRedirect(id)
  {
    SearchFieldAcceptsCode(code, isDigit);
    FindClientExact(s, code, id);
    SearchLeadsToFoundClient(s, session, Some(code), code, id, isDigit);
  }

  /** Once the field yields a code and the lookup finds a client, the
      search redirects to that client's assessment form. */
  lemma SearchLeadsToFoundClient(s: Store, session: Session, raw: Option<string>, code: string, id: UserId, isDigit: DigitTest)
    requires KeysIssued(s)
    requires session.Some?
    requires SearchCodeField(raw, isDigit) == Some(code)
    requires FindClient(s, code) == Some(id)
    ensures TalentStart(s, session, Post, raw, isDigit) == TalentNewRedirect(id)
  {
  }

  /** A ten-digit code without surrounding whitespace passes the search
      field as it is. */
  lemma SearchFieldAcceptsCode(code: string, isDigit: DigitTest)
    requires IsNationalCode(code, isDigit) && Unpadded(code)
    ensures SearchCodeField(Some(code), isDigit) == Some(code)
  {
    assert Strip(Some(code).GetOr("")) == code;
  }

  /** A code held only by a non-CLIENT user is not a match: the search leads
      to client creation. */
  lemma SearchSkipsStaff(s: Store, session: Session, code: string, holder: UserId, isDigit: DigitTest)
    requires Consistent(s)
    requires session.Some?
    requires IsNationalCode(code, isDigit) && Unpadded(code)
    requires holder in s.users && s.users[holder].nationalCode == code && s.users[holder].role != Client
    ensures TalentStart(s, session, Post, Some(code), isDigit) == ClientCreateRedirect(code)
  {
  }

  /** The client form flags a submitted ten-character code without null
      characters exactly when some user already holds it. */
  lemma ClientFormFlagsOnlyHeldCodes(users: map<UserId, User>, input: ClientInput, nc: string)
    requires |nc| == NationalCodeLength && Unpadded(nc) && NulFree(nc)
    requires input.nationalCode == Some(nc)
    ensures ClientFormClean(users, input).Rejected? ==>
      (NationalCodeField in ClientFormClean(users, input).errors <==> CodeInUse(users, nc))
  {
    assert Strip(input.nationalCode.GetOr("")) == nc;
  }

  /** The code a search miss carries to client creation pre-fills the form,
      and that form flags it exactly when some user already holds it. */
  lemma SearchMissPrefillsCreation(s: Store, session: Session, raw: Option<string>, isDigit: DigitTest, nc: string, input: ClientInput)
    requires KeysIssued(s)
    requires TalentStart(s, session, Post, raw, isDigit) == ClientCreateRedirect(nc)
    requires input.nationalCode == Some(nc)
    ensures Prefill(Some(nc)) == Some(nc)
    ensures ClientFormClean(s.users, input).Rejected? ==>
      (NationalCodeField in ClientFormClean(s.users, input).errors <==> CodeInUse(s.users, nc))
  {
    SearchMissCarriesCode(s, session, raw, isDigit, nc);
    ClientFormFlagsOnlyHeldCodes(s.users, input, nc);
  }

  /** The code a search miss carries is a stripped national code that no
      CLIENT holds. */
  lemma SearchMissCarriesCode(s: Store, session: Session, raw: Option<string>, isDigit: DigitTest, nc: string)
    requires KeysIssued(s)
    requires TalentStart(s, session, Post, raw, isDigit) == ClientCreateRedirect(nc)
    ensures IsNationalCode(nc, isDigit) && Unpadded(nc)
    ensures forall id: UserId :: !IsClientWithCode(s, id, nc)
  {
    var page := TalentStart(s, session, Post, raw, isDigit);
    assert page.nationalCode == nc == Strip(raw.GetOr(""));
  }

  /** A search miss on a code that is in use means a non-CLIENT user holds
      it. `ClientCreateRejectsCodeInUse` shows that creating a client with
      that code is then refused. */
  lemma SearchMissOnHeldCode(s: Store, session: Session, raw: Option<string>, isDigit: DigitTest, nc: string)
    requires KeysIssued(s)
    requires TalentStart(s, session, Post, raw, isDigit) == ClientCreateRedirect(nc)
    requires CodeInUse(s.users, nc)
    ensures exists id :: id in s.users && s.users[id].nationalCode == nc && s.users[id].role != Client
  {
    var id :| id in s.users && s.users[id].nationalCode == nc;
    assert !IsClientWithCode(s, id, nc);
  }

  /** The client form has no digit check of its own: it stores a client
      under a three-character code, which no search can ever reach. */
  lemma ShortCodeClientUnreachable(isDigit: DigitTest)
    ensures var input := ClientInput(Some("123"), None, Some("Sara"), Some(Date(2018, 1, 1)), Some("F"), None);
      && ClientFormClean(map[], input).Accepted?
      && ClientFormClean(map[], input).value.nationalCode == "123"
      && !IsNationalCode("123", isDigit)
  {
    var input := ClientInput(Some("123"), None, Some("Sara"), Some(Date(2018, 1, 1)), Some("F"), None);
    assert Unpadded("123") && NulFree("123") && Unpadded("Sara") && NulFree("Sara");
    assert ParseGender("F") == Some(F);
    ShortCodeClientFields(map[], input, "123", "Sara");
    ClientFormAcceptsCleanFields(map[], input);
  }

  /** The client form accepts exactly when every field cleans without error,
      and then stores the cleaned national code. */
  lemma ClientFormAcceptsCleanFields(users: map<UserId, User>, input: ClientInput)
    ensures var v := CleanClientFields(users, input);
      && (ClientFormClean(users, input).Accepted? <==> ClientErrors(v) == {})
      && (ClientErrors(v) == {} ==> ClientFormClean(users, input).value.nationalCode == v.nationalCode.value)
  {
  }

  /** A client submission whose code and name need no cleaning, with no
      phone and no bio, cleans field by field to what was submitted. */
  lemma ShortCodeClientFields(users: map<UserId, User>, input: ClientInput, code: string, name: string)
    requires Unpadded(code) && NulFree(code) && code != "" && |code| <= NationalCodeLength
    requires Unpadded(name) && NulFree(name) && name != "" && |name| <= MaxNameLength
    requires !CodeInUse(users, code)
    requires input.nationalCode == Some(code) && input.phone == None && input.fullName == Some(name) && input.bio == None
    requires input.dateOfBirth.Some? && ParseGender(ChoiceValue(input.gender)).Some?
    ensures CleanClientFields(users, input)
      == ClientFieldValues(Some(code), false, Some(""), Some(name), input.dateOfBirth, ParseGender(ChoiceValue(input.gender)), Some(""))
  {
    CharFieldKeepsCleanValue(code, true, NationalCodeLength);
    CharFieldKeepsCleanValue("", false, MaxPhoneLength);
    CharFieldKeepsCleanValue(name, true, MaxNameLength);
  }

  /** Search reaches a stored user only through a ten-digit code, so a
      client whose code is not one is never found. */
  lemma SearchNeedsTenDigitCode(s: Store, session: Session, raw: Option<string>, isDigit: DigitTest, id: UserId)
    requires KeysIssued(s)
    requires id in s.users && !IsNationalCode(s.users[id].nationalCode, isDigit)
    ensures TalentStart(s, session, Post, raw, isDigit) != TalentNewRedirect(id)
  {
  }

  // ---------------------------------------------------------------------
  // Uniqueness and protection
  // ---------------------------------------------------------------------

  /** Client creation with a national code some user already holds is
      refused on that field and writes nothing. */
  lemma ClientCreateRejectsCodeInUse(s: Store, session: Session, query: Option<string>, input: ClientInput)
    requires KeysIssued(s)
    requires session.Some?
    requires CodeInUse(s.users, Strip(input.nationalCode.GetOr("")))
    ensures var r := ClientCreate(s, session, Post, query, input);
      && r.store == s
      && r.page.ClientCreatePage?
      && NationalCodeField in r.page.errors
  {
  }

  /** Registration with a national code some user already holds is refused
      on that field and writes nothing. */
  lemma RegisterRejectsCodeInUse(s: Store, input: RegisterInput, isDigit: DigitTest)
    requires KeysIssued(s)
    requires CodeInUse(s.users, Strip(input.nationalCode.GetOr("")))
    ensures var r := Register(s, None, Post, input, isDigit);
      && r.store == s
      && r.page.RegisterPage?
      && NationalCodeField in r.page.errors
  {
    RegisterErrorsExact(s.users, input, isDigit);
  }

  /** Deleting an unreferenced user keeps the database valid. */
  lemma DeleteUserKeepsValid(s: Store, id: UserId)
    requires Valid(s)
    requires DeleteUser(s, id).Ok?
    ensures Valid(DeleteUser(s, id).value)
  {
    var t := DeleteUser(s, id).value;
    forall aid | aid in t.assessments
      ensures t.assessments[aid].References() <= t.users.Keys
    {
      assert id !in s.assessments[aid].References();
    }
    forall aid | aid in t.assessments
      ensures RoleLimitsHold(t.users, t.assessments[aid])
    {
      assert RoleLimitsHold(s.users, s.assessments[aid]);
    }
  }

  /** After an assessment is saved, neither its client nor the user who
      recorded it can be deleted. */
  lemma SavedAssessmentProtectsItsUsers(s: Store, session: Session, clientId: UserId, input: AssessmentInput)
    requires KeysIssued(s)
    requires SessionResolves(s, session)
    requires TalentNew(s, session, Post, clientId, input).page.DetailRedirect?
    ensures var t := TalentNew(s, session, Post, clientId, input).store;
      && DeleteUser(t, clientId) == Err(ProtectedReference)
      && DeleteUser(t, session.value) == Err(ProtectedReference)
  {
    var r := TalentNew(s, session, Post, clientId, input);
    var id := r.page.assessmentId;
    assert id in r.store.assessments && clientId in r.store.assessments[id].References();
    assert session.value in r.store.assessments[id].References();
  }

  // ---------------------------------------------------------------------
  // The assessment form, as written and corrected
  // ---------------------------------------------------------------------

  /** As written, `talent_new` answers every complete, valid submission with
      a server error and saves nothing, where the form with the parent total
      saves it. */
  lemma AsWrittenRefusesEveryValidSubmission(s: Store, actor: UserId, clientId: UserId, input: AssessmentInput)
    requires KeysIssued(s)
    requires actor in s.users
    requires clientId in s.users && s.users[clientId].role == Client
    requires AssessmentForm(input).Accepted?
    ensures var written := TalentNewAsWritten(s, Some(actor), Post, clientId, input);
      written.page == ServerError && written.store == s
    ensures TalentNew(s, Some(actor), Post, clientId, input).page.DetailRedirect?
  {
    var f := AssessmentFormAsWritten(input).value;
    var a := NewAssessment(clientId, actor, s.users[actor].role, f);
    assert InsertAssessment(s, a).Err?;
  }

  /** Every submission the as-written form accepts, with or without a
      parent total among its fields, ends in a server error that changes
      nothing: the form never carries the total, so the insert is refused. */
  lemma AsWrittenRefusesWrittenFormSubmission(s: Store, actor: UserId, clientId: UserId, input: AssessmentInput)
    requires KeysIssued(s)
    requires actor in s.users
    requires clientId in s.users && s.users[clientId].role == Client
    requires AssessmentFormAsWritten(input).Accepted?
    ensures var written := TalentNewAsWritten(s, Some(actor), Post, clientId, input);
      written.page == ServerError && written.store == s && written.session == Some(actor)
  {
  }

  /** The detail page shows exactly what was submitted: the date, every
      domain's two scores and peer rating, the parent total and the
      stripped notes. */
  lemma DetailShowsSubmission(s: Store, session: Session, clientId: UserId, input: AssessmentInput)
    requires KeysIssued(s)
    requires SessionResolves(s, session)
    requires TalentNew(s, session, Post, clientId, input).page.DetailRedirect?
    ensures var r := TalentNew(s, session, Post, clientId, input);
      && TalentDetail(r.store, session, r.page.assessmentId).DetailPage?
      && var a := TalentDetail(r.store, session, r.page.assessmentId).assessment;
      && a.client == clientId
      && a.createdBy == session.value
      && Some(a.date) == input.date
      && (forall d :: d in input.coach && a.coach.Of(d) == input.coach[d])
      && (forall d :: d in input.parent && a.parent.Of(d) == input.parent[d])
      && (forall d :: d in input.peers && PeerCode(a.peers.Of(d)) == input.peers[d])
      && a.parentTotal == input.parentTotal
      && a.notes == Strip(input.notes.GetOr(""))
  {
  }

  // ---------------------------------------------------------------------
  // The whole intake of a new client
  // ---------------------------------------------------------------------

  /** A search for a well-formed code nobody holds leads to client
      creation carrying the stripped code. */
  lemma SearchMissOnFreeCode(s: Store, session: Session, raw: Option<string>, isDigit: DigitTest)
    requires KeysIssued(s)
    requires session.Some?
    requires IsNationalCode(Strip(raw.GetOr("")), isDigit)
    requires !CodeInUse(s.users, Strip(raw.GetOr("")))
    ensures TalentStart(s, session, Post, raw, isDigit) == ClientCreateRedirect(Strip(raw.GetOr("")))
  {
  }

  /** A client created through the form is stored as a CLIENT under the
      submitted (stripped) code, with the username derived from it. */
  lemma CreatedClientRecord(s: Store, session: Session, query: Option<string>, input: ClientInput)
    requires KeysIssued(s)
    ensures var r := ClientCreate(s, session, Post, query, input);
      var code := Strip(input.nationalCode.GetOr(""));
      r.page.TalentNewRedirect? ==>
        && r.page.clientId in r.store.users
        && r.store.users[r.page.clientId].role == Client
        && r.store.users[r.page.clientId].nationalCode == code
        && r.store.users[r.page.clientId].username == ClientUsernamePrefix + code
  {
    var r := ClientCreate(s, session, Post, query, input);
    if r.page.TalentNewRedirect? {
      var name := r.store.users[r.page.clientId].username;
      assert ClientFormClean(s.users, input).value.username == "";
      assert name == name[..|ClientUsernamePrefix|] + name[|ClientUsernamePrefix|..];
    }
  }

  /** A signed-in user searches a code nobody holds and submits the client
      form the search sends them to: the client is created exactly when the
      form is accepted, and is then stored with role CLIENT under that code
      and the username derived from it. */
  lemma NewClientIntake(s: Store, actor: UserId, raw: Option<string>, isDigit: DigitTest, input: ClientInput)
    requires KeysIssued(s)
    requires IsNationalCode(Strip(raw.GetOr("")), isDigit)
    requires !CodeInUse(s.users, Strip(raw.GetOr("")))
    requires input.nationalCode == Some(Strip(raw.GetOr("")))
    ensures var code := Strip(raw.GetOr(""));
      && TalentStart(s, Some(actor), Post, raw, isDigit) == ClientCreateRedirect(code)
      && var created := ClientCreate(s, Some(actor), Post, Some(code), input);
      && (created.page.TalentNewRedirect? <==> ClientFormClean(s.users, input).Accepted?)
      && (created.page.TalentNewRedirect? ==>
            && IsClientWithCode(created.store, created.page.clientId, code)
            && created.store.users[created.page.clientId].username == ClientUsernamePrefix + code)
  {
    var code := Strip(raw.GetOr(""));
    SearchMissOnFreeCode(s, Some(actor), raw, isDigit);
    CreatedClientRecord(s, Some(actor), Some(code), input);
  }

  /** A staff member records the assessment of a stored client: it reads
      back as submitted, the database stays valid, and a later search for
      the client's code leads straight back to that client. */
  lemma AssessClient(s: Store, actor: UserId, clientId: UserId, code: string, isDigit: DigitTest, form: AssessmentInput)
    requires Valid(s)
    requires actor in s.users && IsStaff(s.users[actor].role)
    requires IsClientWithCode(s, clientId, code)
    requires IsNationalCode(code, isDigit) && Unpadded(code)
    requires AssessmentForm(form).Accepted?
    ensures var assessed := TalentNew(s, Some(actor), Post, clientId, form);
      && assessed.page.DetailRedirect?
      && Valid(assessed.store)
      && TalentDetail(assessed.store, Some(actor), assessed.page.assessmentId)
           == DetailPage(NewAssessment(clientId, actor, s.users[actor].role, AssessmentForm(form).value))
      && TalentStart(assessed.store, Some(actor), Post, Some(code), isDigit) == TalentNewRedirect(clientId)
  {
    TalentNewByStaffKeepsValid(s, Some(actor), Post, clientId, form);
    var assessed := TalentNew(s, Some(actor), Post, clientId, form);
    SearchFindsClient(assessed.store, Some(actor), code, clientId, isDigit);
  }
}

=== FILE: models.dfy ===
/** The two record types of accounts/models.py: the custom `User` (every
    person, staff or client) and the `TalentAssessment`, with the fixed
    choice sets their fields draw from. */
module Models {
  import opened Options

  /** `User.Role`; the stored value is the upper-case code. */
  datatype Role = Admin | Therapist | Assessor | Client

  /** `role` defaults to CLIENT. */
  const DefaultRole: Role := Client

  function RoleCode(r: Role): string {
    match r
    case Admin => "ADMIN"
    case Therapist => "THERAPIST"
    case Assessor => "ASSESSOR"
    case Client => "CLIENT"
  }

  /** The choice field for a role accepts exactly the four codes. */
  function ParseRole(s: string): (r: Option<Role>)
    ensures r.Some? ==> RoleCode(r.value) == s
    ensures forall x :: RoleCode(x) == s ==> r == Some(x)
  {
    if s == "ADMIN" then Some(Admin)
    else if s == "THERAPIST" then Some(Therapist)
    else if s == "ASSESSOR" then Some(Assessor)
    else if s == "CLIENT" then Some(Client)
    else None
  }

  /** The roles allowed as `created_by` of an assessment. */
  predicate IsStaff(r: Role) {
    r in {Admin, Therapist, Assessor}
  }

  /** The roles allowed as `assessor` of an assessment. */
  predicate MayAssess(r: Role) {
    r in {Therapist, Assessor}
  }

  /** `User.Gender`. */
  datatype Gender = F | M | O

  function GenderCode(g: Gender): string {
    match g
    case F => "F"
    case M => "M"
    case O => "O"
  }

  function ParseGender(s: string): (r: Option<Gender>)
    ensures r.Some? ==> GenderCode(r.value) == s
    ensures forall x :: GenderCode(x) == s ==> r == Some(x)
  {
    if s == "F" then Some(F)
    else if s == "M" then Some(M)
    else if s == "O" then Some(O)
    else None
  }

  /** `PEER_STATUS_CHOICES`: below, level with, or above same-age peers. */
  datatype Peer = BelowPeers | AtPeers | AbovePeers

  function PeerCode(p: Peer): string {
    match p
    case BelowPeers => "1"
    case AtPeers => "1.5"
    case AbovePeers => "2"
  }

  function ParsePeer(s: string): (r: Option<Peer>)
    ensures r.Some? ==> PeerCode(r.value) == s
    ensures forall x :: PeerCode(x) == s ==> r == Some(x)
  {
    if s == "1" then Some(BelowPeers)
    else if s == "1.5" then Some(AtPeers)
    else if s == "2" then Some(AbovePeers)
    else None
  }

  /** The four development domains every assessment scores. */
  datatype Domain = Motor | Cognitive | Social | Emotional

  /** A calendar date, carried as it was parsed; date parsing is not part of
      this model. */
  datatype Date = Date(year: int, month: int, day: int)

  /** Primary keys, as the database assigns them. */
  type UserId = nat
  type AssessmentId = nat

  datatype User = User(
    username: string,
    role: Role,
    nationalCode: string,
    fullName: string,
    dateOfBirth: Date,
    gender: Gender,
    phone: string,
    email: string,
    bio: string)

  /** The range of a `PositiveSmallIntegerField`. */
  const MaxSmallScore: int := 32767

  type Score = n: int | 0 <= n <= MaxSmallScore

  /** One rater's four domain scores. */
  datatype Scores = Scores(motor: Score, cognitive: Score, social: Score, emotional: Score) {
    function Of(d: Domain): Score {
      match d
      case Motor => motor
      case Cognitive => cognitive
      case Social => social
      case Emotional => emotional
    }
  }

  /** The peer-standing rating of each domain. */
  datatype PeerRatings = PeerRatings(motor: Peer, cognitive: Peer, social: Peer, emotional: Peer) {
    function Of(d: Domain): Peer {
      match d
      case Motor => motor
      case Cognitive => cognitive
      case Social => social
      case Emotional => emotional
    }
  }

  /** A `TalentAssessment` row. `parentTotal` is the nullable Python value
      of the NOT NULL column `parent_total_score`; the coach total, which is
      nullable and never set, and the creation timestamp are not modelled. */
  datatype Assessment = Assessment(
    client: UserId,
    createdBy: UserId,
    assessor: Option<UserId>,
    date: Date,
    coach: Scores,
    parent: Scores,
    parentTotal: Option<real>,
    peers: PeerRatings,
    notes: string)
  {
    /** Every user the row points at through a protected foreign key. */
    function References(): (r: set<UserId>)
      ensures client in r && createdBy in r
      ensures assessor.Some? ==> assessor.value in r
      ensures forall u :: u in r ==> u == client || u == createdBy || assessor == Some(u)
    {
      {client, createdBy} + (match assessor case Some(a) => {a} case None => {})
    }
  }

  /** The `limit_choices_to` declarations of the three foreign keys: the
      client has role CLIENT, the creator a staff role, the optional assessor
      THERAPIST or ASSESSOR. */
  predicate RoleLimitsHold(users: map<UserId, User>, a: Assessment)
    requires a.References() <= users.Keys
  {
    && users[a.client].role == Client
    && IsStaff(users[a.createdBy].role)
    && (a.assessor.Some? ==> MayAssess(users[a.assessor.value].role))
  }
}

=== FILE: options.dfy ===
/** Optional values: a form field that was not submitted, a nullable column,
    a lookup that found nothing. */
module Options {

  datatype Option<+T> = None | Some(value: T) {

    /** The wrapped value, or `default` when there is none
        (Python's `x or default` on a possibly-missing value). */
    function GetOr(default: T): T {
      match this
      case Some(v) => v
      case None => default
    }
  }
}

=== FILE: text.dfy ===
/** The few Python `str` operations the forms rely on: `strip()`,
    `isdigit()` and filtering a string down to its digit characters. */
module Text {

  /** Python's `str.isdigit` on one character. It accepts every Unicode
      decimal digit (Persian and Arabic-Indic digits included) and more, so
      the model never fixes the set: every operation that looks at digits
      takes the classifier as a parameter, and every property is proved for
      all classifiers. */
  type DigitTest = char -> bool

  /** The whitespace set of Python's `str.isspace`, which `str.strip()` with
      no argument removes from both ends. */
  predicate IsSpace(c: char) {
    || ('\t' <= c <= '\r')
    || ('\U{1C}' <= c <= '\U{1F}')
    || c == ' '
    || c == '\U{85}'
    || c == '\U{A0}'
    || c == '\U{1680}'
    || ('\U{2000}' <= c <= '\U{200A}')
    || c == '\U{2028}'
    || c == '\U{2029}'
    || c == '\U{202F}'
    || c == '\U{205F}'
    || c == '\U{3000}'
  }

  /** Python's own classifiers never call a whitespace character a digit. */
  ghost predicate NoSpaceIsDigit(isDigit: DigitTest) {
    forall c :: IsSpace(c) ==> !isDigit(c)
  }

  /** Neither end of `s` is whitespace. */
  predicate Unpadded(s: string) {
    s == [] || (!IsSpace(s[0]) && !IsSpace(s[|s| - 1]))
  }

  function TrimStart(s: string): (r: string)
    ensures |r| <= |s| && r == s[|s| - |r|..]
    ensures r == [] || !IsSpace(r[0])
    ensures forall i :: 0 <= i < |s| - |r| ==> IsSpace(s[i])
  {
    if s != [] && IsSpace(s[0]) then TrimStart(s[1..]) else s
  }

  function TrimEnd(s: string): (r: string)
    ensures |r| <= |s| && r == s[..|r|]
    ensures r == [] || !IsSpace(r[|r| - 1])
    ensures forall i :: |r| <= i < |s| ==> IsSpace(s[i])
  {
    if s != [] && IsSpace(s[|s| - 1]) then TrimEnd(s[..|s| - 1]) else s
  }

  /** `r` is `s` with a run of whitespace cut from each end: a contiguous
      slice of `s` starting at `k`, with only whitespace before and after. */
  predicate IsTrimOf(r: string, s: string, k: nat) {
    && k + |r| <= |s|
    && r == s[k..k + |r|]
    && (forall i :: 0 <= i < k ==> IsSpace(s[i]))
    && (forall i :: k + |r| <= i < |s| ==> IsSpace(s[i]))
  }

  /** Python's `str.strip()`: the result has no whitespace at either end,
      and a string that already has none is returned as it is.
      `StripCutsOnlyEdgeWhitespace` and `StripIsUnique` show that it is
      exactly the input with the whitespace at both ends cut off. */
  function Strip(s: string): (r: string)
    ensures |r| <= |s|
    ensures Unpadded(r)
    ensures Unpadded(s) ==> r == s
  {
    TrimEnd(TrimStart(s))
  }

  /** Stripping cuts a run of whitespace from each end and changes nothing
      else. */
  lemma StripCutsOnlyEdgeWhitespace(s: string)
    ensures exists k :: IsTrimOf(Strip(s), s, k)
  {
    TrimBothEnds(s);
    assert IsTrimOf(Strip(s), s, |s| - |TrimStart(s)|);
  }

  /** Trimming the start and then the end cuts a whitespace run from each
      end, starting at the first character `TrimStart` keeps. */
  lemma TrimBothEnds(s: string)
    ensures IsTrimOf(TrimEnd(TrimStart(s)), s, |s| - |TrimStart(s)|)
  {
    var t := TrimStart(s);
    SuffixPrefixIsTrim(s, |s| - |t|, t, TrimEnd(t));
  }

  /** A prefix `r` of the suffix `t` of `s` that starts at `k` is a trim of
      `s` when only whitespace precedes `t` in `s` and follows `r` in `t`. */
  lemma SuffixPrefixIsTrim(s: string, k: nat, t: string, r: string)
    requires k <= |s| && t == s[k..]
    requires |r| <= |t| && r == t[..|r|]
    requires forall i :: 0 <= i < k ==> IsSpace(s[i])
    requires forall i :: |r| <= i < |t| ==> IsSpace(t[i])
    ensures IsTrimOf(r, s, k)
  {
    forall i | k + |r| <= i < |s|
      ensures IsSpace(s[i])
    {
      assert s[i] == t[i - k];
    }
  }

  /** Whatever cuts only whitespace from the ends of `s` and leaves none at
      either end is `Strip(s)`. */
  lemma StripIsUnique(s: string, r: string, k: nat)
    requires IsTrimOf(r, s, k) && Unpadded(r)
    ensures r == Strip(s)
  {
    StripCutsOnlyEdgeWhitespace(s);
    var j :| IsTrimOf(Strip(s), s, j);
    TrimsAgree(s, r, k, Strip(s), j);
  }

  /** Two ways of cutting whitespace from the ends of `s` that both leave
      none at either end cut the same amount. */
  lemma TrimsAgree(s: string, r: string, k: nat, q: string, j: nat)
    requires IsTrimOf(r, s, k) && Unpadded(r)
    requires IsTrimOf(q, s, j) && Unpadded(q)
    ensures r == q
  {
    if r != [] && q != [] {
      assert s[k] == r[0] && s[j] == q[0];
      assert s[k + |r| - 1] == r[|r| - 1] && s[j + |q| - 1] == q[|q| - 1];
    }
  }

  lemma StripIdempotent(s: string)
    ensures Strip(Strip(s)) == Strip(s)
  {
  }

  /** Python's `str.isdigit()` on a whole string, which is false for the
      empty string. */
  predicate IsDigitString(s: string, isDigit: DigitTest) {
    |s| > 0 && AllDigits(s, isDigit)
  }

  predicate AllDigits(s: string, isDigit: DigitTest) {
    forall i :: 0 <= i < |s| ==> isDigit(s[i])
  }

  /** `a` can be obtained from `b` by deleting characters, keeping order. */
  predicate IsSubsequence(a: string, b: string)
    decreases |b|
  {
    || a == []
    || (b != [] && ((a[0] == b[0] && IsSubsequence(a[1..], b[1..])) || IsSubsequence(a, b[1..])))
  }

  /** `r` is exactly the digits of `s`, in their order: an in-order
      selection from `s` made only of digits that keeps every occurrence of
      every digit. */
  ghost predicate IsDigitsOf(r: string, s: string, isDigit: DigitTest) {
    && IsSubsequence(r, s)
    && AllDigits(r, isDigit)
    && forall c :: isDigit(c) ==> multiset(r)[c] == multiset(s)[c]
  }

  /** `"".join(c for c in s if c.isdigit())` */
  function KeepDigits(s: string, isDigit: DigitTest): (r: string)
    ensures AllDigits(r, isDigit)
    ensures |r| <= |s|
    ensures AllDigits(s, isDigit) ==> r == s
    decreases |s|
  {
    if s == [] then []
    else (if isDigit(s[0]) then [s[0]] else []) + KeepDigits(s[1..], isDigit)
  }

  /** The filter keeps exactly the digits of its input, in order. */
  lemma {:induction false} KeepDigitsIsDigitsOf(s: string, isDigit: DigitTest)
    ensures IsDigitsOf(KeepDigits(s, isDigit), s, isDigit)
    decreases |s|
  {
    if s != [] {
      var rest := KeepDigits(s[1..], isDigit);
      KeepDigitsIsDigitsOf(s[1..], isDigit);
      assert s == [s[0]] + s[1..];
      var r := KeepDigits(s, isDigit);
      if isDigit(s[0]) {
        assert r == [s[0]] + rest;
        assert r[0] == s[0] && r[1..] == rest;
      } else {
        assert r == rest;
        if r != [] {
          assert IsSubsequence(r, s[1..]);
        }
      }
    }
  }

  lemma {:induction false} KeepDigitsAppend(a: string, b: string, isDigit: DigitTest)
    ensures KeepDigits(a + b, isDigit) == KeepDigits(a, isDigit) + KeepDigits(b, isDigit)
    decreases |a|
  {
    if a != [] {
      assert (a + b)[0] == a[0] && (a + b)[1..] == a[1..] + b;
      KeepDigitsAppend(a[1..], b, isDigit);
      var head := if isDigit(a[0]) then [a[0]] else [];
      calc {
        KeepDigits(a + b, isDigit);
        head + KeepDigits(a[1..] + b, isDigit);
        head + (KeepDigits(a[1..], isDigit) + KeepDigits(b, isDigit));
        (head + KeepDigits(a[1..], isDigit)) + KeepDigits(b, isDigit);
        KeepDigits(a, isDigit) + KeepDigits(b, isDigit);
      }
    } else {
      assert a + b == b;
    }
  }

  lemma {:induction false} KeepDigitsOfSpaces(s: string, isDigit: DigitTest)
    requires NoSpaceIsDigit(isDigit)
    requires forall i :: 0 <= i < |s| ==> IsSpace(s[i])
    ensures KeepDigits(s, isDigit) == []
    decreases |s|
  {
    if s != [] {
      KeepDigitsOfSpaces(s[1..], isDigit);
    }
  }

  lemma KeepDigitsIgnoresTrimStart(s: string, isDigit: DigitTest)
    requires NoSpaceIsDigit(isDigit)
    ensures KeepDigits(TrimStart(s), isDigit) == KeepDigits(s, isDigit)
  {
    var t := TrimStart(s);
    var lead := s[..|s| - |t|];
    assert s == lead + t;
    KeepDigitsOfSpaces(lead, isDigit);
    KeepDigitsAppend(lead, t, isDigit);
  }

  lemma KeepDigitsIgnoresTrimEnd(s: string, isDigit: DigitTest)
    requires NoSpaceIsDigit(isDigit)
    ensures KeepDigits(TrimEnd(s), isDigit) == KeepDigits(s, isDigit)
  {
    var u := TrimEnd(s);
    var trail := s[|u|..];
    assert s == u + trail;
    KeepDigitsOfSpaces(trail, isDigit);
    KeepDigitsAppend(u, trail, isDigit);
  }

  /** Stripping only removes whitespace, so it removes no digit. */
  lemma KeepDigitsIgnoresStrip(s: string, isDigit: DigitTest)
    requires NoSpaceIsDigit(isDigit)
    ensures KeepDigits(Strip(s), isDigit) == KeepDigits(s, isDigit)
  {
    KeepDigitsIgnoresTrimStart(s, isDigit);
    KeepDigitsIgnoresTrimEnd(TrimStart(s), isDigit);
  }
}

=== FILE: views.dfy ===
/** The request handlers of accounts/views.py, one function per view. Each
    takes the database, the signed-in user of the request (explicit here,
    where the framework injects it) and the submitted data, and yields the
    page or redirect the view returns together with the database after it.
    Only `register` changes the session, by signing the new user in. */
module Views {
  import opened Options
  import opened Text
  import opened Models
  import opened Database
  import opened Forms

  datatype Method = Get | Post

  /** `request.user`: the signed-in user's key, or `None` when anonymous. */
  type Session = Option<UserId>

  datatype Page =
    | LoginRedirect
    | HomeRedirect
    | RegisterPage(errors: set<Field>)
    | SearchPage(errors: set<Field>)
    | ClientCreatePage(initial: Option<string>, errors: set<Field>)
    | AssessmentPage(client: UserId, errors: set<Field>)
    | TalentNewRedirect(clientId: UserId)
    | ClientCreateRedirect(nationalCode: string)
    | DetailRedirect(assessmentId: AssessmentId)
    | DetailPage(assessment: Assessment)
    | NotFound
    | ServerError

  datatype Response = Response(store: Store, session: Session, page: Page)

  /** The signed-in user's record; the authentication layer only ever
      supplies a user that exists. */
  predicate SessionResolves(s: Store, session: Session) {
    session.Some? ==> session.value in s.users
  }

  // ---------------------------------------------------------------------
  // register
  // ---------------------------------------------------------------------

  /** `register` around a given registration form: a signed-in user is sent
      home and nothing is created; a valid POST stores the new user and signs
      it in; anything else shows the form again, with the fields in error,
      and writes nothing. */
  function RegisterWith(s: Store, session: Session, verb: Method, form: Cleaned<User>): (r: Response)
    requires KeysIssued(s)
    requires form.Accepted? ==> !CodeInUse(s.users, form.value.nationalCode)
    ensures KeysIssued(r.store)
    ensures SessionResolves(s, session) ==> SessionResolves(r.store, r.session)
    ensures session.Some? ==> r == Response(s, session, HomeRedirect)
    ensures r.page.RegisterPage? || r.page == HomeRedirect
    ensures r.page.RegisterPage? ==> r.store == s && r.session == session
    ensures r.store == s <==> !(session.None? && verb.Post? && form.Accepted?)
    ensures r.store == s ==> r.session == session
    ensures session.None? && r.store == s ==> r.page.RegisterPage?
    ensures session.None? && verb.Get? ==> r.page == RegisterPage({})
    ensures session.None? && verb.Post? && form.Rejected? ==> r.page == RegisterPage(form.errors)
    ensures r.store != s ==>
      && r.session.Some? && r.page == HomeRedirect
      && var id := r.session.value;
      && id !in s.users && id in r.store.users
      && r.store.users == s.users[id := form.value]
      && r.store.assessments == s.assessments
      && KeysIssued(r.store)
  {
    if session.Some? then Response(s, session, HomeRedirect)
    else if verb.Get? then Response(s, session, RegisterPage({}))
    else
      match form
      case Rejected(errors) => Response(s, session, RegisterPage(errors))
      case Accepted(u) =>
        var (t, id) := InsertUser(s, u).value;
        Response(t, Some(id), HomeRedirect)
  }

  /** `register`: the registration form's user is stored and signed in when
      an anonymous visitor submits a valid form; otherwise nothing changes. */
  function Register(s: Store, session: Session, verb: Method, input: RegisterInput, isDigit: DigitTest): (r: Response)
    requires KeysIssued(s)
    ensures KeysIssued(r.store)
    ensures SessionResolves(s, session) ==> SessionResolves(r.store, r.session)
    ensures session.Some? ==> r == Response(s, session, HomeRedirect)
    ensures r.store == s <==> !(session.None? && verb.Post? && RegisterFormClean(s.users, input, isDigit).Accepted?)
    ensures r.store == s ==> r.session == session
    ensures session.None? && r.store == s ==> r.page.RegisterPage?
    ensures session.None? && verb.Post? && RegisterFormClean(s.users, input, isDigit).Rejected? ==>
      r.page == RegisterPage(RegisterFormClean(s.users, input, isDigit).errors)
    ensures r.store != s ==>
      && r.session.Some? && r.page == HomeRedirect
      && var id := r.session.value;
      && id !in s.users && id in r.store.users
      && r.store.users == s.users[id := RegisterFormClean(s.users, input, isDigit).value]
      && r.store.assessments == s.assessments
  {
    RegisterWith(s, session, verb, RegisterFormClean(s.users, input, isDigit))
  }

  // ---------------------------------------------------------------------
  // talent_start
  // ---------------------------------------------------------------------

  /** `talent_start`: a valid national code leads to the assessment form of
      the CLIENT holding it, or else to client creation carrying the code.
      The view never writes. */
  function TalentStart(s: Store, session: Session, verb: Method, raw: Option<string>, isDigit: DigitTest): (p: Page)
    requires KeysIssued(s)
    ensures session.None? ==> p == LoginRedirect
    ensures session.Some? ==> !p.LoginRedirect?
    ensures p.LoginRedirect? || p.SearchPage? || p.TalentNewRedirect? || p.ClientCreateRedirect?
    ensures session.Some? ==>
      (p.SearchPage? <==> verb.Get? || !IsNationalCode(Strip(raw.GetOr("")), isDigit))
    ensures p.TalentNewRedirect? ==>
      && verb.Post?
      && IsNationalCode(Strip(raw.GetOr("")), isDigit)
      && IsClientWithCode(s, p.clientId, Strip(raw.GetOr("")))
    ensures p.ClientCreateRedirect? ==>
      && verb.Post?
      && p.nationalCode == Strip(raw.GetOr(""))
      && IsNationalCode(p.nationalCode, isDigit)
      && forall id: UserId :: !IsClientWithCode(s, id, p.nationalCode)
  {
    if session.None? then LoginRedirect
    else if verb.Get? then SearchPage({})
    else
      match SearchCodeField(raw, isDigit)
      case None => SearchPage({NationalCodeField})
      case Some(nc) => SearchRedirect(s, nc)
  }

  /** Where a valid search code leads: the assessment form of the CLIENT
      holding it, or client creation carrying the code when none does. */
  function SearchRedirect(s: Store, nc: string): (p: Page)
    requires KeysIssued(s)
    ensures p.TalentNewRedirect? <==> exists id: UserId :: IsClientWithCode(s, id, nc)
    ensures p.TalentNewRedirect? ==> IsClientWithCode(s, p.clientId, nc)
    ensures p.ClientCreateRedirect? <==> forall id: UserId :: !IsClientWithCode(s, id, nc)
    ensures p.ClientCreateRedirect? ==> p.nationalCode == nc
  {
    match FindClient(s, nc)
    case Some(id) => TalentNewRedirect(id)
    case None => ClientCreateRedirect(nc)
  }

  // ---------------------------------------------------------------------
  // client_create
  // ---------------------------------------------------------------------

  /** The form's initial data: the `national_code` query parameter when it
      is present and non-empty. */
  function Prefill(query: Option<string>): (r: Option<string>)
    ensures r.Some? <==> query.Some? && query.value != ""
    ensures r.Some? ==> r == query
  {
    match query
    case Some(nc) => if nc != "" then Some(nc) else None
    case None => None
  }

  /** `client_create`: a valid POST stores a new CLIENT (username derived
      from the national code) and leads to its assessment form; otherwise
      the form is shown, pre-filled from the query, and nothing is written. */
  function ClientCreate(s: Store, session: Session, verb: Method, query: Option<string>, input: ClientInput): (r: Response)
    requires KeysIssued(s)
    ensures r.session == session
    ensures KeysIssued(r.store)
    ensures SessionResolves(s, session) ==> SessionResolves(r.store, r.session)
    ensures session.None? ==> r.store == s && r.page == LoginRedirect
    ensures session.Some? ==> !r.page.LoginRedirect?
    ensures session.Some? && verb.Get? ==> r.page == ClientCreatePage(Prefill(query), {})
    ensures session.Some? && verb.Post? && ClientFormClean(s.users, input).Rejected? ==>
      r.page == ClientCreatePage(Prefill(query), ClientFormClean(s.users, input).errors)
    ensures r.page.LoginRedirect? || r.page.ClientCreatePage? || r.page.TalentNewRedirect?
    ensures r.page.TalentNewRedirect? <==> session.Some? && verb.Post? && ClientFormClean(s.users, input).Accepted?
    ensures r.page.ClientCreatePage? ==> r.store == s && r.page.initial == Prefill(query)
    ensures r.page.TalentNewRedirect? ==>
      var id := r.page.clientId;
      && session.Some? && verb.Post?
      && id !in s.users && id in r.store.users
      && r.store.users == s.users[id := r.store.users[id]]
      && r.store.assessments == s.assessments
      && ClientFormClean(s.users, input).Accepted?
      && r.store.users[id] == ClientFormSave(ClientFormClean(s.users, input).value)
    ensures r.store != s ==> r.page.TalentNewRedirect?
  {
    if session.None? then Response(s, session, LoginRedirect)
    else if verb.Get? then Response(s, session, ClientCreatePage(Prefill(query), {}))
    else
      match ClientFormClean(s.users, input)
      case Rejected(errors) => Response(s, session, ClientCreatePage(Prefill(query), errors))
      case Accepted(obj) =>
        var (t, id) := InsertUser(s, ClientFormSave(obj)).value;
        Response(t, session, TalentNewRedirect(id))
  }

  // ---------------------------------------------------------------------
  // talent_new
  // ---------------------------------------------------------------------

  /** The assessor of a new assessment: the acting user when it is a
      THERAPIST or ASSESSOR, otherwise nobody. */
  function AssessorFor(actor: UserId, role: Role): (r: Option<UserId>)
    ensures r.Some? <==> MayAssess(role)
    ensures r.Some? ==> r.value == actor
  {
    if role == Therapist || role == Assessor then Some(actor) else None
  }

  /** The row `talent_new` saves: the cleaned fields bound to the client,
      created by the acting user. */
  function NewAssessment(client: UserId, actor: UserId, actorRole: Role, f: AssessmentFields): (a: Assessment)
    ensures a.client == client && a.createdBy == actor
    ensures a.assessor == AssessorFor(actor, actorRole)
    ensures a.date == f.date && a.coach == f.coach && a.parent == f.parent
    ensures a.parentTotal == f.parentTotal && a.peers == f.peers && a.notes == f.notes
  {
    Assessment(client, actor, AssessorFor(actor, actorRole), f.date, f.coach, f.parent, f.parentTotal, f.peers, f.notes)
  }

  /** `ta.save()` and the redirect to the detail page; a refused insert is
      an exception the view does not catch, which the server turns into an
      error response with nothing written. */
  function SaveAssessment(s: Store, session: Session, a: Assessment): (r: Response)
    requires KeysIssued(s)
    ensures r.session == session
    ensures KeysIssued(r.store)
    ensures r.page.DetailRedirect? <==> InsertAssessment(s, a).Ok?
    ensures r.page.DetailRedirect? ==> (r.store, r.page.assessmentId) == InsertAssessment(s, a).value
    ensures !r.page.DetailRedirect? ==> r.store == s && r.page == ServerError
  {
    match InsertAssessment(s, a)
    case Ok((t, id)) => Response(t, session, DetailRedirect(id))
    case Err(_) => Response(s, session, ServerError)
  }

  /** `talent_new` around a given assessment form: the client must exist
      with role CLIENT (else NotFound, for GET and POST alike); a valid POST
      saves the assessment. */
  function TalentNewWith(s: Store, session: Session, verb: Method, clientId: UserId, form: Cleaned<AssessmentFields>): (r: Response)
    requires KeysIssued(s)
    requires SessionResolves(s, session)
    ensures r.session == session
    ensures KeysIssued(r.store)
    ensures session.None? ==> r.store == s && r.page == LoginRedirect
    ensures session.Some? ==>
      (r.page == NotFound <==> clientId !in s.users || s.users[clientId].role != Client)
    ensures r.page.AssessmentPage? ==> r.store == s && r.page.client == clientId
    ensures r.page.DetailRedirect? || r.page == ServerError ==>
      && session.Some? && verb.Post? && form.Accepted?
      && clientId in s.users && s.users[clientId].role == Client
      && r == SaveAssessment(s, session, NewAssessment(clientId, session.value, s.users[session.value].role, form.value))
    ensures r.store != s ==> r.page.DetailRedirect?
    ensures session.Some? && clientId in s.users && s.users[clientId].role == Client && verb.Get? ==>
      r.page == AssessmentPage(clientId, {})
    ensures session.Some? && clientId in s.users && s.users[clientId].role == Client && verb.Post? && form.Rejected? ==>
      r.page == AssessmentPage(clientId, form.errors)
    ensures session.Some? && clientId in s.users && s.users[clientId].role == Client && verb.Post? && form.Accepted? ==>
      r == SaveAssessment(s, session, NewAssessment(clientId, session.value, s.users[session.value].role, form.value))
  {
    if session.None? then Response(s, session, LoginRedirect)
    else if clientId !in s.users || s.users[clientId].role != Client then Response(s, session, NotFound)
    else if verb.Get? then Response(s, session, AssessmentPage(clientId, {}))
    else
      match form
      case Rejected(errors) => Response(s, session, AssessmentPage(clientId, errors))
      case Accepted(f) =>
        var actor := session.value;
        SaveAssessment(s, session, NewAssessment(clientId, actor, s.users[actor].role, f))
  }

  /** `talent_new` as written: its form leaves `parent_total_score` unset,
      so the save of a valid submission inserts NULL into a NOT NULL column
      and is refused; the view never reaches the detail redirect. */
  function TalentNewAsWritten(s: Store, session: Session, verb: Method, clientId: UserId, input: AssessmentInput): (r: Response)
    requires KeysIssued(s)
    requires SessionResolves(s, session)
    ensures r.store == s
    ensures !r.page.DetailRedirect?
  {
    TalentNewWith(s, session, verb, clientId, AssessmentFormAsWritten(input))
  }

  /** `talent_new` with the parent total on the form: a valid POST by a
      signed-in user for an existing CLIENT always stores the assessment,
      bound to that client, created by the acting user, with the acting user
      as assessor exactly when it is a THERAPIST or ASSESSOR. */
  function TalentNew(s: Store, session: Session, verb: Method, clientId: UserId, input: AssessmentInput): (r: Response)
    requires KeysIssued(s)
    requires SessionResolves(s, session)
    ensures r.session == session
    ensures KeysIssued(r.store)
    ensures r.page != ServerError
    ensures r.page.DetailRedirect? <==>
      && session.Some? && verb.Post? && AssessmentForm(input).Accepted?
      && clientId in s.users && s.users[clientId].role == Client
    ensures r.page.DetailRedirect? ==>
      var id := r.page.assessmentId;
      var actor := session.value;
      && id !in s.assessments && id in r.store.assessments
      && var a := r.store.assessments[id];
      && r.store.assessments == s.assessments[id := a]
      && r.store.users == s.users
      && a.client == clientId
      && a.createdBy == actor
      && (a.assessor == Some(actor) <==> MayAssess(s.users[actor].role))
      && (a.assessor.None? <==> !MayAssess(s.users[actor].role))
      && a == NewAssessment(clientId, actor, s.users[actor].role, AssessmentForm(input).value)
    ensures !r.page.DetailRedirect? ==> r.store == s
    ensures session.Some? && clientId in s.users && s.users[clientId].role == Client && verb.Get? ==>
      r.page == AssessmentPage(clientId, {})
    ensures session.Some? && clientId in s.users && s.users[clientId].role == Client && verb.Post? && AssessmentForm(input).Rejected? ==>
      r.page == AssessmentPage(clientId, AssessmentForm(input).errors)
  {
    TalentNewWith(s, session, verb, clientId, AssessmentForm(input))
  }

  // ---------------------------------------------------------------------
  // talent_detail
  // ---------------------------------------------------------------------

  /** `talent_detail`: the stored assessment as it is, or NotFound. */
  function TalentDetail(s: Store, session: Session, pk: AssessmentId): (p: Page)
    ensures session.None? ==> p == LoginRedirect
    ensures session.Some? ==> (p == NotFound <==> pk !in s.assessments)
    ensures session.Some? && pk in s.assessments ==> p == DetailPage(s.assessments[pk])
  {
    if session.None? then LoginRedirect
    else
      match GetAssessment(s, pk)
      case Ok(a) => DetailPage(a)
      case Err(_) => NotFound
  }
}
